=== FILE: README.md ===
# ETL core: a Dafny model

This project models the business rules of a small ETL pipeline. The pipeline
consolidates three CSV extracts into two analytics tables:

- users (`user_id`, `join_date`, `name`, `email`);
- transactions (`transaction_id`, `user_id`, `timestamp`, `amount`, `transaction_type`);
- package deliveries (`package_id`, `user_id`, `delivery_date`, `courier`, `delivery_status`).

The model covers:

- **Transform.** Each entity drops rows whose key was already seen, keeping
  the first. The surviving rows are then cleaned:
  - text fields are rendered as strings, with a missing value becoming `"nan"`;
  - text fields are capped at 256 characters;
  - couriers are stripped of whitespace, upper-cased and capped;
  - dates and timestamps are parsed;
  - amounts are rounded.
- **Merge.** `merge_data` runs two independent pandas left merges on `user_id`,
  rooted at the users table, with suffixes `("", "_txn")` and `("", "_dlv")`.
  The model follows pandas' left-merge semantics:
  - left rows keep their order, each followed by its matches in right-row order;
  - a left row without a match is padded with missing cells;
  - the right key column is dropped;
  - colliding column names get the suffixes;
  - a missing key matches a missing key.
- **Validate.** `validate_data` has two halves.
  - The duplicate-key check uses `duplicated(keep=False)`, so every copy is
    reported and missing key cells compare equal.
  - The text check requires every present cell of an object-typed (text)
    column to be a string of at most 256 characters.

Modules:

- `Wrappers`: `Option`, `Result` and `Outcome`.
- `Text`: `str()` of a cell, slicing, `strip` and `upper`.
- `Dedup`: keep-first de-duplication.
- `Transform`: the three transforms.
- `Tables`: cells, columns and tables.
- `Merge`: the left merge and `merge_data`.
- `Load`: `validate_data`.
- `Pipeline`: the run of `main.py`, with the theorems that connect the stages.

The central cross-stage results:

- `Pipeline.MergedKeysUnique`: after the transforms de-duplicate users by
  `user_id` and transactions/deliveries by their own ids, both merges succeed.
  Both merged tables are then unique on their composite keys (`user_id`,
  `transaction_id`) and (`user_id`, `package_id`).
- `Pipeline.PipelinePasses`: whenever the date and timestamp parsers emit
  strings of at most 256 characters, the whole run passes validation.

## Model

| member | source | states |
|---|---|---|
| Dedup.KeepFirst | src/transform.py:58 | the kept rows are key-unique, carry exactly the keys of the input, and are no more than the input |
| Dedup.FirstIndices | src/transform.py:58 | the kept positions are positions of the input, in strictly increasing order |
| Dedup.FirstIndicesKept | src/transform.py:58 | the kept rows are exactly the input rows at those positions, so the output is a subsequence of the input in input order |
| Dedup.FirstIndicesAreFirsts | src/transform.py:58 | a position is kept if and only if no earlier row has the same key (keep='first') |
| Dedup.KeepFirstOfUnique | src/transform.py:58 | a table already unique on the key is returned unchanged |
| Dedup.KeepFirstIdempotent | src/transform.py:58 | de-duplicating twice equals de-duplicating once |
| Dedup.UniqueCount | src/transform.py:58 | a key-unique table has exactly as many rows as distinct keys |
| Dedup.KeepFirstCount | src/transform.py:80 | the output has one row per distinct key of the input |
| Dedup.KeptAndMapped | src/transform.py:58-61 | cleaning the kept rows without touching their keys keeps them key-unique, one per distinct input key, each the cleaned first row of its key |
| Dedup.DropDuplicates | src/transform.py:102 | the one-pass scan with a seen-set computes exactly the keep-first result |
| Text.AsTextNan | src/transform.py:60 | `astype(str)` loses information only at the literal text "nan": the result is "nan" if and only if the cell is missing or holds "nan", any other present string stays distinguishable from a missing cell, and a missing cell passes the 256-character cap as "nan" |
| Text.Truncate | src/transform.py:60-61 | the result is the longest prefix of at most 256 characters; short strings are untouched |
| Text.TruncateIdempotent | src/transform.py:83 | capping twice equals capping once |
| Text.Lead | src/transform.py:104 | counts exactly the leading whitespace: all of it is whitespace and the next character is not |
| Text.Trail | src/transform.py:104 | the length after removing trailing whitespace: the removed tail is all whitespace and the last kept character is not |
| Text.Strip | src/transform.py:104 | the result is a contiguous slice of the input, everything removed around it is whitespace, and the result has no whitespace at either end |
| Text.StripKeepsTrimmed | src/transform.py:104 | a string without boundary whitespace is left unchanged by strip |
| Text.StripIdempotent | src/transform.py:104 | stripping twice equals stripping once |
| Text.Upper | src/transform.py:104 | same length; every ASCII lower-case letter becomes its capital, every other character is kept; no lower-case ASCII letter remains; whitespace stays whitespace |
| Text.NormalizeCourier | src/transform.py:104 | the stripped upper-cased text when it fits the cap, and otherwise exactly its first 256 characters; no lower-case ASCII letter and no leading whitespace, nor trailing whitespace when it fits |
| Text.CourierExample | src/transform.py:104 | "  fedEx " normalises to "FEDEX" |
| Text.MissingCourier | src/transform.py:104 | a missing courier becomes "NAN" |
| Transform.TransformUsers | src/transform.py:57-62 | one user per distinct `user_id`, key-unique, same key set as the input; each output row is the cleaned first raw row with that id and keeps its `user_id`; name and email fit the cap |
| Transform.TransformTransactions | src/transform.py:79-84 | one transaction per distinct `transaction_id`, key-unique, same key set; each output row is the cleaned first raw row with that id and keeps its `transaction_id` and `user_id`; `transaction_type` fits the cap |
| Transform.TransformDeliveries | src/transform.py:101-106 | one delivery per distinct `package_id`, key-unique, same key set; each output row is the cleaned first raw row with that id and keeps its `package_id` and `user_id`; courier fits the cap and has no lower-case ASCII letter; status fits the cap |
| Transform.DedupBeforeCleanExample | src/transform.py:57-60 | of two users sharing an id, only the first survives, with its own name |
| Merge.MergeColumns | src/merge.py:27 | the merged columns are the left columns (unsuffixed, since the left suffix is empty) followed by the right non-key columns, renamed with the right suffix exactly when they collide with a left name; kinds are kept |
| Merge.LeftMerge | src/merge.py:27-28 | succeeds exactly when the key labels one column on each side and collisions can be suffixed; otherwise it names the first failing check: the key missing or not unique in the right table (pandas looks the right key up first), then the same in the left table, then a name collision with both suffixes empty; on success the table is well formed, has the left width plus the right width less one, keeps the left columns in front, and its rows are the left-join rows |
| Merge.RightKeyFirstExample | src/merge.py:27 | a key duplicated on the left and missing on the right is reported as missing, because the right key is looked up first |
| Merge.MergeData | src/merge.py:27-29 | succeeds exactly when both merges can go ahead; both results are left merges of the users table on `user_id`, with the users' columns in front |
| Merge.MatchesSound | src/merge.py:27 | every match carries the probed key and is a right row |
| Merge.MatchesCount | src/merge.py:27 | the number of matches equals the number of right rows carrying the key |
| Merge.MatchesComplete | src/merge.py:27 | every right row carrying the key is among the matches |
| Merge.JoinRowsWidth | src/merge.py:27 | every merged row is as wide as the two tables less the right key |
| Merge.JoinRowCount | src/merge.py:27 | the join has, summed over the left rows, max(1, number of right rows with the same key) rows |
| Merge.BlockCount | src/merge.py:27 | one left row yields max(1, its number of matching right rows) merged rows |
| Merge.BlockRows | src/merge.py:27 | each merged row of a left row is produced from it, every matching right row yields one, and an unmatched left row yields exactly its padded copy |
| Merge.JoinRowsSound | src/merge.py:27 | every merged row is a left row padded with missing cells or joined to a right row with the same key |
| Merge.JoinRowsComplete | src/merge.py:27 | every unmatched left row appears padded, and every matching (left row, right row) pair appears joined |
| Merge.LeftRowsRetained | src/merge.py:10-11 | every user is retained: each left row begins at least one merged row |
| Merge.UnmatchedRightRowDropped | src/merge.py:27 | a right row whose key no left row carries contributes nothing: the join is unchanged when it is deleted |
| Merge.MatchesWithout | src/merge.py:27 | deleting a right row with another key leaves the matches unchanged |
| Merge.MatchesSplit | src/merge.py:27 | matching distributes over concatenation of the right rows |
| Merge.ProducedKeepsLeft | src/merge.py:27 | a merged row starts with its left row and keeps its join key |
| Merge.MatchesUnique | src/merge.py:27 | filtering right rows keeps a unique column unique |
| Merge.BlockUnique | src/merge.py:27 | the merged rows of one left row differ on the right table's unique column |
| Merge.JoinKeysUnique | src/merge.py:27-28 | with a key-unique left table and a right table unique on column c, the join is unique on (join key, merged position of c) |
| Tables.Count | src/load.py:20 | the count is the multiset multiplicity, and is positive exactly for members |
| Tables.IndexOf | src/load.py:20 | the position of the first occurrence of a present name |
| Load.MissingNames | src/load.py:20 | exactly the requested key names that are not columns of the table |
| Load.Positions | src/load.py:20 | for each key name, the first column position carrying that name |
| Load.Duplicated | src/load.py:20 | a row is marked if and only if another row has the same key (keep=False marks every copy) |
| Load.Selected | src/load.py:20 | exactly the marked positions, in increasing order |
| Load.DuplicateRows | src/load.py:20-21 | exactly the rows whose key another row shares; empty if and only if the table is unique on the key |
| Load.DuplicateCheck | src/load.py:20-21 | passes if and only if the table is unique on the key columns; otherwise reports exactly the rows whose key another row shares |
| Load.KeyCheck | src/load.py:19-21 | passes if and only if no key columns are given, or the table has no rows, or all key columns exist and no two rows agree on them; a failure names exactly the missing columns, or is the duplicate check's report |
| Load.StackRowMembers | src/load.py:25 | the stacked cells of a row are exactly its present text cells |
| Load.StackMembers | src/load.py:25 | the stacked cells of a table are exactly the stacked cells of its rows |
| Load.StackCheck | src/load.py:23-26 | every stacked cell is a short string if and only if every text cell is missing or a short string |
| Load.TextCheck | src/load.py:23-26 | passes if and only if every present text cell is a string of at most 256 characters; otherwise reports a bad text field |
| Load.ValidateData | src/load.py:3-29 | passes if and only if the key requirement (vacuous for no key columns or no rows) and the text requirement both hold; with no key columns only the text requirement matters; a key violation is reported before any text problem |
| Load.EmptyTableExample | src/load.py:19-21 | a table without rows passes even though its key column is missing |
| Load.DuplicateKeyExample | src/load.py:20-21 | two rows with key (5, 100) are rejected and both are reported |
| Load.AllMissingKeysAreDuplicates | src/load.py:20-21 | two rows whose key cells are all missing are rejected as duplicates |
| Pipeline.SchemasMerge | src/merge.py:27-28 | users share only `user_id` with transactions and with deliveries, so both merges go ahead and no suffix applies |
| Pipeline.MergedColumns | src/merge.py:27-28 | with no collisions, the merged columns are the left columns followed by the right non-key columns |
| Pipeline.MergedPositions | main.py:57-58 | in both merged tables the composite key columns sit at positions 0 and 4 |
| Pipeline.UniqueRows | src/transform.py:58 | a table laid out from key-unique records is unique on its key column |
| Pipeline.Cleaned | main.py:43-45 | the three transformed tables are well formed and have the entities' column layouts |
| Pipeline.MergedKeysUnique | main.py:43-58 | after the transforms, both merges succeed and both merged tables pass the duplicate-key check on (`user_id`, `transaction_id`) and (`user_id`, `package_id`) |
| Pipeline.ProducedCell | src/merge.py:27 | a merged cell is the left row's cell, a padding cell, or the cell, in the column it was copied from, of a right row carrying the left row's key, and the returned index names that right row |
| Pipeline.MergePreservesText | src/merge.py:27-28 | a left merge of two tables meeting the text requirement meets it too |
| Pipeline.UsersTextOk | src/transform.py:59-61 | users with short dates, names and emails lay out into a table meeting the text requirement |
| Pipeline.TransactionsTextOk | src/transform.py:81-83 | transactions with short timestamps and types lay out into a table meeting the text requirement |
| Pipeline.DeliveriesTextOk | src/transform.py:103-105 | deliveries with short dates, couriers and statuses lay out into a table meeting the text requirement |
| Pipeline.CleanedTextOk | src/transform.py:57-106 | with bounded parsers, all three cleaned tables meet the text requirement |
| Pipeline.RunPipeline | main.py:43-58 | both merges always succeed; the run succeeds if and only if both merged tables meet the text requirement, and then returns exactly the merged tables, which meet the key requirements too; a failure is a bad text field, reported against the transactions table exactly when that table is the one that fails |
| Pipeline.ValidateMerged | main.py:57-58 | for merged tables meeting their key requirements, validation passes if and only if both meet the text requirement, and it reports the transactions table first |
| Pipeline.PipelinePasses | main.py:43-58 | with parsers that emit at most 256 characters, the run never fails validation |

## Left out

- Date and timestamp parsing (`clean_dates`, `clean_timestamps`) are dateutil
  and pytz calls. They are parameters of the model (`Transform.Cleaners`),
  functions from the rendered text to an optional string. `None` means the
  parse failed.
- `round(2)` on the float `amount` is a parameter too. Floating point is not
  modelled.
- Extraction from CSV, `save_to_csv` and `save_to_sqlite` are I/O and are not
  modelled. The console messages are not modelled either.
- Text.Upper: only ASCII letters are upper-cased. Python's `str.upper` also
  maps other scripts and expands characters such as "ß" to "SS", which can
  change the length before the cap.
- `astype(str)` on a non-text cell renders a number as Python would, for
  example "3.0". The model's raw text fields are optional strings only.
- The column dtypes are declared per column as text or other. Pandas would
  infer them, and a merge can change them, for example an integer column
  becoming float when padding adds missing values. The text check looks only
  at the text columns, which are `object`-typed. The key check compares the
  key cells as exact values, whatever their dtype.
- Pipeline.MergedKeysUnique: ids are assumed to be exact in float64, that is
  |id| <= 2^53. Once one user has no match, the merge pads `transaction_id`
  (or `package_id`) with missing values and pandas stores that column as
  float64. Above 2^53 two different ids can then round to the same float,
  and the key check fails. The model keeps integer cells unbounded, so it
  promises a pass there.
- Pipeline.RunPipeline: ids are assumed to be exact in float64, that is
  |id| <= 2^53. Above that, pandas' float64 padding of `transaction_id` or
  `package_id` can make the run fail with duplicate keys. The contract rules
  that failure out, because the model compares ids as unbounded integers.
- Pipeline.PipelinePasses: ids are assumed to be exact in float64, that is
  |id| <= 2^53. Above that, the run can fail the key check after padding.
  The lemma promises a pass because the model compares ids as unbounded
  integers.
- Identifiers are integers or missing. Pandas' cross-type equality of numeric
  keys (1 == 1.0) is not modelled.
- Merge.LeftMerge: pandas' check against suffixed names that collide with
  existing names is not modelled. It cannot arise for the tables of this
  pipeline, which share only `user_id` (`Pipeline.SchemasMerge`).
- Load.KeyCheck: duplicate column labels inside the key subset are not
  modelled. The duplicate test uses the first column carrying each name.
  A table with rows but no columns fails in both pandas and the model, but
  with a different error. pandas' `duplicated` returns an empty mask, and
  indexing with it raises an alignment error. The model reports the missing
  key columns.
- Load.ValidationError: the duplicate-key error lists every duplicated row.
  The original message shows only the first five (`head()`).
- Missing key cells are not exempt. Two rows that agree on every key cell,
  missing cells included, are duplicates, even when all their key cells are
  missing (`Load.AllMissingKeysAreDuplicates`). This follows the code:
  `duplicated(keep=False)` compares missing values as equal.

=== FILE: dedup.dfy ===
/** Keep-first de-duplication by a key column: pandas'
    `drop_duplicates(subset=key, keep='first')` over a table of rows. */
module Dedup {

  /** The set of keys occurring in `rows`. */
  function KeysOf<R, K(==)>(rows: seq<R>, key: R -> K): set<K> {
    set i | 0 <= i < |rows| :: key(rows[i])
  }

  /** No two rows share a key. */
  predicate UniqueBy<R, K(==)>(rows: seq<R>, key: R -> K) {
    forall i, j :: 0 <= i < j < |rows| ==> key(rows[i]) != key(rows[j])
  }

  /** Row `i` is the first row carrying its key. */
  predicate IsFirst<R, K(==)>(rows: seq<R>, key: R -> K, i: int) {
    0 <= i < |rows| && forall j :: 0 <= j < i ==> key(rows[j]) != key(rows[i])
  }

  lemma KeysOfSnoc<R, K>(rows: seq<R>, x: R, key: R -> K)
    ensures KeysOf(rows + [x], key) == KeysOf(rows, key) + {key(x)}
  {
    var s := rows + [x];
    forall k | k in KeysOf(s, key) ensures k in KeysOf(rows, key) + {key(x)} {
      var i :| 0 <= i < |s| && key(s[i]) == k;
      if i < |rows| { assert s[i] == rows[i]; }
    }
    forall k | k in KeysOf(rows, key) + {key(x)} ensures k in KeysOf(s, key) {
      if k == key(x) {
        assert s[|rows|] == x;
      } else {
        var i :| 0 <= i < |rows| && key(rows[i]) == k;
        assert s[i] == rows[i];
      }
    }
  }

  /** The rows that remain, in their original order: a row is kept exactly
      when no earlier row has its key. */
  function KeepFirst<R, K(==)>(rows: seq<R>, key: R -> K): (r: seq<R>)
    ensures UniqueBy(r, key)
    ensures KeysOf(r, key) == KeysOf(rows, key)
    ensures |r| <= |rows|
    decreases |rows|
  {
    if |rows| == 0 then []
    else
      var init := rows[..|rows| - 1];
      var last := rows[|rows| - 1];
      assert rows == init + [last];
      KeysOfSnoc(init, last, key);
      var kept := KeepFirst(init, key);
      if key(last) in KeysOf(init, key) then kept
      else
        KeysOfSnoc(kept, last, key);
        kept + [last]
  }

  /** Whether a row is first-of-its-key does not depend on later rows. */
  lemma IsFirstPrefix<R, K>(rows: seq<R>, key: R -> K, n: nat, i: int)
    requires n <= |rows| && 0 <= i < n
    ensures IsFirst(rows[..n], key, i) <==> IsFirst(rows, key, i)
  {
    assert forall j :: 0 <= j <= i ==> rows[..n][j] == rows[j];
  }

  /** The last row is first-of-its-key exactly when its key is new. */
  lemma IsFirstLast<R, K>(rows: seq<R>, key: R -> K)
    requires |rows| > 0
    ensures IsFirst(rows, key, |rows| - 1) <==> key(rows[|rows| - 1]) !in KeysOf(rows[..|rows| - 1], key)
  {
    var n := |rows| - 1;
    var init := rows[..n];
    if key(rows[n]) in KeysOf(init, key) {
      var j :| 0 <= j < n && key(init[j]) == key(rows[n]);
      assert key(rows[j]) == key(rows[n]);
    } else {
      forall j | 0 <= j < n ensures key(rows[j]) != key(rows[n]) {
        assert key(init[j]) in KeysOf(init, key);
      }
    }
  }

  /** The positions of the rows keep-first keeps, in increasing order. */
  function FirstIndices<R, K(==)>(rows: seq<R>, key: R -> K): (idx: seq<nat>)
    ensures forall t :: 0 <= t < |idx| ==> idx[t] < |rows|
    ensures forall s, t :: 0 <= s < t < |idx| ==> idx[s] < idx[t]
    decreases |rows|
  {
    if |rows| == 0 then []
    else
      var n := |rows| - 1;
      var prev := FirstIndices(rows[..n], key);
      if key(rows[n]) in KeysOf(rows[..n], key) then prev else prev + [n]
  }

  /** `KeepFirst` is the subsequence of `rows` at `FirstIndices`. */
  lemma {:induction false} FirstIndicesKept<R, K>(rows: seq<R>, key: R -> K)
    ensures |FirstIndices(rows, key)| == |KeepFirst(rows, key)|
    ensures forall t :: 0 <= t < |FirstIndices(rows, key)| ==> KeepFirst(rows, key)[t] == rows[FirstIndices(rows, key)[t]]
    decreases |rows|
  {
    if |rows| > 0 {
      var n := |rows| - 1;
      FirstIndicesKept(rows[..n], key);
      KeptStep(rows, key(rows[n]) in KeysOf(rows[..n], key), FirstIndices(rows[..n], key),
               KeepFirst(rows[..n], key), FirstIndices(rows, key), KeepFirst(rows, key));
    }
  }

  /** The step of `FirstIndicesKept`, for any positions `prev` selecting
      `kept` from the table without its last row. */
  lemma KeptStep<R>(rows: seq<R>, seen: bool, prev: seq<nat>, kept: seq<R>, idx: seq<nat>, kf: seq<R>)
    requires |rows| > 0 && |prev| == |kept|
    requires forall t :: 0 <= t < |prev| ==> prev[t] < |rows| - 1 && kept[t] == rows[prev[t]]
    requires idx == (if seen then prev else prev + [|rows| - 1])
    requires kf == (if seen then kept else kept + [rows[|rows| - 1]])
    ensures |idx| == |kf| && forall t :: 0 <= t < |idx| ==> kf[t] == rows[idx[t]]
  {
    if !seen {
      assert idx[|prev|] == |rows| - 1 && kf[|prev|] == rows[|rows| - 1];
    }
  }

  /** The kept positions are exactly the first-occurrence positions. */
  lemma {:induction false} FirstIndicesAreFirsts<R, K>(rows: seq<R>, key: R -> K)
    ensures forall t :: 0 <= t < |FirstIndices(rows, key)| ==> IsFirst(rows, key, FirstIndices(rows, key)[t])
    ensures forall i :: IsFirst(rows, key, i) ==> i in FirstIndices(rows, key)
  {
    FirstIndicesSound(rows, key);
    FirstIndicesComplete(rows, key);
  }

  /** One step of `FirstIndices`: the last position is added exactly when it
      is first-of-its-key. */
  lemma FirstIndicesSnoc<R, K>(rows: seq<R>, key: R -> K)
    requires |rows| > 0
    ensures FirstIndices(rows, key) ==
      if IsFirst(rows, key, |rows| - 1) then FirstIndices(rows[..|rows| - 1], key) + [|rows| - 1]
      else FirstIndices(rows[..|rows| - 1], key)
  {
    IsFirstLast(rows, key);
  }

  /** Every kept position is first-of-its-key. */
  lemma {:induction false} FirstIndicesSound<R, K>(rows: seq<R>, key: R -> K)
    ensures forall t :: 0 <= t < |FirstIndices(rows, key)| ==> IsFirst(rows, key, FirstIndices(rows, key)[t])
    decreases |rows|
  {
    if |rows| > 0 {
      var n := |rows| - 1;
      FirstIndicesSound(rows[..n], key);
      FirstIndicesSnoc(rows, key);
      SoundStep(rows, key, FirstIndices(rows[..n], key), FirstIndices(rows, key));
    }
  }

  /** The step of `FirstIndicesSound`, for any positions `prev` of the
      table without its last row. */
  lemma SoundStep<R, K>(rows: seq<R>, key: R -> K, prev: seq<nat>, idx: seq<nat>)
    requires |rows| > 0
    requires forall t :: 0 <= t < |prev| ==> IsFirst(rows[..|rows| - 1], key, prev[t])
    requires idx == if IsFirst(rows, key, |rows| - 1) then prev + [|rows| - 1] else prev
    ensures forall t :: 0 <= t < |idx| ==> IsFirst(rows, key, idx[t])
  {
    var n := |rows| - 1;
    forall t | 0 <= t < |idx| ensures IsFirst(rows, key, idx[t]) {
      if t < |prev| {
        assert idx[t] == prev[t];
        assert IsFirst(rows[..n], key, prev[t]);
        IsFirstPrefix(rows, key, n, prev[t]);
      }
    }
  }

  /** Every first-of-its-key position is kept. */
  lemma FirstIndicesComplete<R, K>(rows: seq<R>, key: R -> K)
    ensures forall i :: IsFirst(rows, key, i) ==> i in FirstIndices(rows, key)
  {
    forall i | IsFirst(rows, key, i) ensures i in FirstIndices(rows, key) {
      FirstIndexKept(rows, key, i);
    }
  }

  /** One first-of-its-key position is kept: it is the last row of the
      prefix ending there, and each further row only appends. */
  lemma {:induction false} FirstIndexKept<R, K>(rows: seq<R>, key: R -> K, i: int)
    requires IsFirst(rows, key, i)
    ensures i in FirstIndices(rows, key)
    decreases |rows|
  {
    var n := |rows| - 1;
    FirstIndicesSnoc(rows, key);
    if i < n {
      IsFirstPrefix(rows, key, n, i);
      FirstIndexKept(rows[..n], key, i);
    }
  }

  /** A key-unique table is left unchanged. */
  lemma {:induction false} KeepFirstOfUnique<R, K>(rows: seq<R>, key: R -> K)
    requires UniqueBy(rows, key)
    ensures KeepFirst(rows, key) == rows
    decreases |rows|
  {
    if |rows| > 0 {
      var n := |rows| - 1;
      var init := rows[..n];
      KeepFirstOfUnique(init, key);
      assert key(rows[n]) !in KeysOf(init, key) by {
        forall j | 0 <= j < n ensures key(init[j]) != key(rows[n]) {
          assert init[j] == rows[j];
        }
      }
      assert init + [rows[n]] == rows;
    }
  }

  /** De-duplicating twice is the same as de-duplicating once. */
  lemma KeepFirstIdempotent<R, K>(rows: seq<R>, key: R -> K)
    ensures KeepFirst(KeepFirst(rows, key), key) == KeepFirst(rows, key)
  {
    KeepFirstOfUnique(KeepFirst(rows, key), key);
  }

  /** A key-unique table has as many rows as distinct keys. */
  lemma {:induction false} UniqueCount<R, K>(rows: seq<R>, key: R -> K)
    requires UniqueBy(rows, key)
    ensures |KeysOf(rows, key)| == |rows|
    decreases |rows|
  {
    if |rows| > 0 {
      var n := |rows| - 1;
      var init := rows[..n];
      UniqueCount(init, key);
      assert init + [rows[n]] == rows;
      KeysOfSnoc(init, rows[n], key);
      assert key(rows[n]) !in KeysOf(init, key) by {
        forall j | 0 <= j < n ensures key(init[j]) != key(rows[n]) {
          assert init[j] == rows[j];
        }
      }
    }
  }

  /** The output has one row per distinct key of the input. */
  lemma KeepFirstCount<R, K>(rows: seq<R>, key: R -> K)
    ensures |KeepFirst(rows, key)| == |KeysOf(rows, key)|
  {
    UniqueCount(KeepFirst(rows, key), key);
  }

  /** What a row-wise cleaning of the kept rows inherits from `KeepFirst`,
      given that cleaning leaves each row's key alone. */
  lemma KeptAndMapped<R, S, K>(rows: seq<R>, key: R -> K, r: seq<S>, key2: S -> K)
    requires |r| == |KeepFirst(rows, key)|
    requires forall t :: 0 <= t < |r| ==> key2(r[t]) == key(KeepFirst(rows, key)[t])
    ensures |r| == |KeysOf(rows, key)|
    ensures UniqueBy(r, key2)
    ensures KeysOf(r, key2) == KeysOf(rows, key)
    ensures |FirstIndices(rows, key)| == |r|
    ensures forall t :: 0 <= t < |r| ==>
      FirstIndices(rows, key)[t] < |rows| && IsFirst(rows, key, FirstIndices(rows, key)[t])
      && KeepFirst(rows, key)[t] == rows[FirstIndices(rows, key)[t]]
  {
    KeepFirstCount(rows, key);
    FirstIndicesKept(rows, key);
    FirstIndicesAreFirsts(rows, key);
    SameKeys(KeepFirst(rows, key), key, r, key2);
  }

  /** Rows matched position by position with equal keys have the same key
      set, and the same uniqueness. */
  lemma SameKeys<R, S, K>(kept: seq<R>, key: R -> K, r: seq<S>, key2: S -> K)
    requires |r| == |kept|
    requires forall t :: 0 <= t < |r| ==> key2(r[t]) == key(kept[t])
    ensures KeysOf(r, key2) == KeysOf(kept, key)
    ensures UniqueBy(r, key2) <==> UniqueBy(kept, key)
  {
    forall k | k in KeysOf(r, key2) ensures k in KeysOf(kept, key) {
      var t :| 0 <= t < |r| && key2(r[t]) == k;
    }
    forall k | k in KeysOf(kept, key) ensures k in KeysOf(r, key2) {
      var t :| 0 <= t < |kept| && key(kept[t]) == k;
      assert key2(r[t]) == k;
    }
  }

  /** The keep-first scan as pandas runs it: one forward pass remembering
      the keys already seen. It computes exactly `KeepFirst`. */
  method DropDuplicates<R, K(==)>(rows: seq<R>, key: R -> K) returns (r: seq<R>)
    ensures r == KeepFirst(rows, key)
  {
    var seen: set<K> := {};
    r := [];
    var i := 0;
    while i < |rows|
      invariant 0 <= i <= |rows|
      invariant r == KeepFirst(rows[..i], key)
      invariant seen == KeysOf(rows[..i], key)
    {
      assert rows[..i + 1] == rows[..i] + [rows[i]];
      KeysOfSnoc(rows[..i], rows[i], key);
      if key(rows[i]) !in seen {
        r := r + [rows[i]];
        seen := seen + {key(rows[i])};
      }
      i := i + 1;
    }
    assert rows[..|rows|] == rows;
  }
}

=== FILE: load.dfy ===
/** The gate before persistence: `validate_data`. It fails, all or nothing,
    when a primary-key combination occurs on more than one row, or when a
    present cell of a text column is not a string of at most 256 characters. */
module Load {
  import opened Wrappers
  import opened Text
  import opened Tables

  datatype ValidationError =
    | MissingKeyColumns(names: seq<string>)  // pandas raises KeyError
    | DuplicateKeys(rows: seq<nat>)          // every row whose key occurs twice
    | BadTextField                           // some text cell is too long or not a string

  // ---------------------------------------------------------------------
  // Duplicate primary keys: `df.duplicated(subset=cols, keep=False)`

  /** The key names `pk` absent from the columns `names`, in `pk` order. */
  function MissingNames(pk: seq<string>, names: seq<string>): (r: seq<string>)
    ensures forall n :: n in r <==> n in pk && n !in names
  {
    if |pk| == 0 then []
    else (if pk[0] in names then [] else [pk[0]]) + MissingNames(pk[1..], names)
  }

  /** The positions of the key columns (first column of each name). */
  function Positions(names: seq<string>, pk: seq<string>): (p: seq<nat>)
    requires forall n :: n in pk ==> n in names
    ensures |p| == |pk|
    ensures forall t :: 0 <= t < |pk| ==> p[t] < |names| && names[p[t]] == pk[t]
    ensures forall t :: 0 <= t < |pk| ==> forall q :: 0 <= q < p[t] ==> names[q] != pk[t]
  {
    seq(|pk|, t requires 0 <= t < |pk| => IndexOf(names, pk[t]))
  }

  lemma CountAtLeastTwo<T>(xs: seq<T>, i: nat)
    requires i < |xs|
    ensures multiset(xs)[xs[i]] > 1 <==> exists j :: 0 <= j < |xs| && j != i && xs[j] == xs[i]
  {
    var x := xs[i];
    var a, b := xs[..i], xs[i + 1..];
    assert xs == a + [x] + b;
    assert multiset(xs)[x] == multiset(a)[x] + 1 + multiset(b)[x];
    if multiset(xs)[x] > 1 {
      if x in a {
        var j :| 0 <= j < |a| && a[j] == x;
        assert xs[j] == x;
      } else {
        assert x in multiset(b);
        var j :| 0 <= j < |b| && b[j] == x;
        assert xs[i + 1 + j] == x;
      }
    }
    if exists j :: 0 <= j < |xs| && j != i && xs[j] == x {
      var j :| 0 <= j < |xs| && j != i && xs[j] == x;
      if j < i {
        assert a[j] == x;
        assert x in multiset(a);
      } else {
        assert b[j - i - 1] == x;
        assert x in multiset(b);
      }
    }
  }

  /** `duplicated(keep=False)`: a row is marked when its key occurs more than
      once, so every copy is marked, the first one included. */
  function Duplicated(keys: seq<seq<Cell>>): (marks: seq<bool>)
    ensures |marks| == |keys|
    ensures forall i :: 0 <= i < |keys| ==>
      (marks[i] <==> exists j :: 0 <= j < |keys| && j != i && keys[j] == keys[i])
  {
    var marks := seq(|keys|, i requires 0 <= i < |keys| => Count(keys, keys[i]) > 1);
    assert forall i :: 0 <= i < |keys| ==>
      (marks[i] <==> exists j :: 0 <= j < |keys| && j != i && keys[j] == keys[i]) by {
      forall i | 0 <= i < |keys| { CountAtLeastTwo(keys, i); }
    }
    marks
  }

  /** The positions holding `true`, in increasing order. */
  function Selected(marks: seq<bool>): (r: seq<nat>)
    ensures forall i: nat :: i in r <==> i < |marks| && marks[i]
    ensures forall s, t :: 0 <= s < t < |r| ==> r[s] < r[t]
  {
    if |marks| == 0 then []
    else
      var rest := Selected(marks[..|marks| - 1]);
      assert forall s :: 0 <= s < |rest| ==> rest[s] < |marks| - 1 by {
        forall s | 0 <= s < |rest| ensures rest[s] < |marks| - 1 {
          assert rest[s] in rest;
        }
      }
      if marks[|marks| - 1] then rest + [|marks| - 1] else rest
  }

  /** The key of every row. */
  function KeyRows(t: Table, p: seq<nat>): (keys: seq<seq<Cell>>)
    ensures |keys| == |t.rows| && forall i :: 0 <= i < |t.rows| ==> keys[i] == Project(t.rows[i], p)
  {
    seq(|t.rows|, i requires 0 <= i < |t.rows| => Project(t.rows[i], p))
  }

  /** The primary-key requirement, stated directly: with no key columns or
      no rows nothing is required (pandas' `duplicated` returns before looking
      at the key columns when the table has no rows); otherwise every key
      column exists and no two rows agree on all of them. Missing cells
      compare equal, as in pandas. */
  predicate KeysOk(t: Table, pk: seq<string>) {
    |pk| == 0 || |t.rows| == 0 ||
    ((forall n :: n in pk ==> n in Names(t.columns)) && UniqueOn(t.rows, Positions(Names(t.columns), pk)))
  }

  // ---------------------------------------------------------------------
  // Text cells: `all(isinstance(x, str) and len(x) <= 256 for x in stacked)`

  /** A present cell of a text column passes when it is a string of at most 256 characters. */
  predicate ShortString(x: Cell) {
    x.Str? && |x.s| <= MaxLen
  }

  /** The text requirement, stated cell by cell: every cell of a text column
      is missing or a short string. */
  predicate TextCellsOk(t: Table) {
    forall i, k :: 0 <= i < |t.rows| && 0 <= k < |t.columns| && t.columns[k].kind == TextKind ==>
      At(t.rows[i], k) == Null || ShortString(At(t.rows[i], k))
  }

  /** The present cells of the text columns of one row, from column `k` on. */
  function StackRow(row: Row, cols: seq<Column>, k: nat): seq<Cell>
    decreases |cols| - k
  {
    if k >= |cols| then []
    else (if cols[k].kind == TextKind && At(row, k) != Null then [At(row, k)] else []) + StackRow(row, cols, k + 1)
  }

  /** `select_dtypes(include='object').stack()`: the present text cells, row by row. */
  function Stack(rows: seq<Row>, cols: seq<Column>): seq<Cell> {
    if |rows| == 0 then [] else StackRow(rows[0], cols, 0) + Stack(rows[1..], cols)
  }

  lemma {:induction false} StackRowMembers(row: Row, cols: seq<Column>, k: nat)
    ensures forall x :: x in StackRow(row, cols, k) <==>
      exists c :: k <= c < |cols| && cols[c].kind == TextKind && At(row, c) == x && x != Null
    decreases |cols| - k
  {
    if k < |cols| {
      StackRowMembers(row, cols, k + 1);
    }
  }

  lemma {:induction false} StackMembers(rows: seq<Row>, cols: seq<Column>)
    ensures forall x :: x in Stack(rows, cols) <==> exists i :: 0 <= i < |rows| && x in StackRow(rows[i], cols, 0)
    decreases |rows|
  {
    if |rows| > 0 {
      StackMembers(rows[1..], cols);
      forall x
        ensures x in Stack(rows, cols) <==> exists i :: 0 <= i < |rows| && x in StackRow(rows[i], cols, 0)
      {
        if exists i :: 0 <= i < |rows| && x in StackRow(rows[i], cols, 0) {
          var i :| 0 <= i < |rows| && x in StackRow(rows[i], cols, 0);
          if i > 0 { assert rows[1..][i - 1] == rows[i]; }
        }
        if x in Stack(rows[1..], cols) {
          var i :| 0 <= i < |rows[1..]| && x in StackRow(rows[1..][i], cols, 0);
          assert rows[1..][i] == rows[i + 1];
        }
      }
    }
  }

  /** Scanning the stacked cells decides exactly the cell-by-cell requirement. */
  lemma StackCheck(t: Table)
    requires WellFormed(t)
    ensures (forall x :: x in Stack(t.rows, t.columns) ==> ShortString(x)) <==> TextCellsOk(t)
  {
    StackMembers(t.rows, t.columns);
    forall i | 0 <= i < |t.rows| { StackRowMembers(t.rows[i], t.columns, 0); }
    if forall x :: x in Stack(t.rows, t.columns) ==> ShortString(x) {
      forall i, k | 0 <= i < |t.rows| && 0 <= k < |t.columns| && t.columns[k].kind == TextKind
        ensures At(t.rows[i], k) == Null || ShortString(At(t.rows[i], k))
      {
        if At(t.rows[i], k) != Null {
          assert At(t.rows[i], k) in StackRow(t.rows[i], t.columns, 0);
        }
      }
    }
    if TextCellsOk(t) {
      forall x | x in Stack(t.rows, t.columns) ensures ShortString(x) {
        var i :| 0 <= i < |t.rows| && x in StackRow(t.rows[i], t.columns, 0);
        var c :| 0 <= c < |t.columns| && t.columns[c].kind == TextKind && At(t.rows[i], c) == x && x != Null;
      }
    }
  }

  function TextCheck(t: Table): (r: Outcome<ValidationError>)
    requires WellFormed(t)
    ensures r == Pass <==> TextCellsOk(t)
    ensures r != Pass ==> r == Fail(BadTextField)
  {
    StackCheck(t);
    if forall x :: x in Stack(t.rows, t.columns) ==> ShortString(x) then Pass else Fail(BadTextField)
  }

  // ---------------------------------------------------------------------

  /** The rows `df.duplicated(subset, keep=False)` marks: every row whose key
      another row shares. */
  function DuplicateRows(t: Table, p: seq<nat>): (d: seq<nat>)
    ensures forall i: nat :: i in d <==>
      i < |t.rows| && exists j :: 0 <= j < |t.rows| && j != i && Project(t.rows[j], p) == Project(t.rows[i], p)
    ensures |d| == 0 <==> UniqueOn(t.rows, p)
  {
    var d := Selected(Duplicated(KeyRows(t, p)));
    NoDuplicateRows(t, p, d);
    d
  }

  /** No row is listed exactly when the rows are unique on the key. */
  lemma NoDuplicateRows(t: Table, p: seq<nat>, d: seq<nat>)
    requires forall i: nat :: i in d <==>
      i < |t.rows| && exists j :: 0 <= j < |t.rows| && j != i && Project(t.rows[j], p) == Project(t.rows[i], p)
    ensures |d| == 0 <==> UniqueOn(t.rows, p)
  {
    if |d| > 0 {
      assert d[0] in d;
    }
    if !UniqueOn(t.rows, p) {
      var i, j :| 0 <= i < j < |t.rows| && Project(t.rows[i], p) == Project(t.rows[j], p);
      assert i in d;
    }
  }

  /** The duplicate test once every key column is known to exist. */
  function DuplicateCheck(t: Table, pk: seq<string>): (r: Outcome<ValidationError>)
    requires forall n :: n in pk ==> n in Names(t.columns)
    ensures r == Pass <==> UniqueOn(t.rows, Positions(Names(t.columns), pk))
    ensures r.Fail? ==>
      && r.error.DuplicateKeys? && |r.error.rows| > 0
      && var p := Positions(Names(t.columns), pk);
         forall i: nat :: i in r.error.rows <==>
           i < |t.rows| && exists j :: 0 <= j < |t.rows| && j != i && Project(t.rows[j], p) == Project(t.rows[i], p)
  {
    var dupes := DuplicateRows(t, Positions(Names(t.columns), pk));
    if |dupes| > 0 then Fail(DuplicateKeys(dupes)) else Pass
  }

  /** The primary-key half of `validate_data`. */
  function KeyCheck(t: Table, pk: seq<string>): (r: Outcome<ValidationError>)
    ensures r == Pass <==> KeysOk(t, pk)
    ensures r.Fail? ==> |pk| > 0 && |t.rows| > 0 && (r.error.MissingKeyColumns? || r.error.DuplicateKeys?)
    ensures r.Fail? && r.error.MissingKeyColumns? ==>
      r.error.names != [] && forall n :: n in r.error.names <==> n in pk && n !in Names(t.columns)
    ensures r.Fail? && r.error.DuplicateKeys? ==>
      (forall n :: n in pk ==> n in Names(t.columns)) && r == DuplicateCheck(t, pk)
  {
    if |pk| == 0 || |t.rows| == 0 then Pass
    else
      var missing := MissingNames(pk, Names(t.columns));
      if |missing| > 0 then
        assert missing[0] in missing;
        Fail(MissingKeyColumns(missing))
      else
        assert forall n :: n in pk ==> n in Names(t.columns);
        DuplicateCheck(t, pk)
  }

  /** `validate_data(df, primary_key_cols)`: the key check (skipped when no key
      columns are given) and then the text check. Passing leaves the table as
      it is; failing rejects the whole table. */
  function ValidateData(t: Table, pk: seq<string>): (r: Outcome<ValidationError>)
    requires WellFormed(t)
    ensures r == Pass <==> KeysOk(t, pk) && TextCellsOk(t)
    ensures |pk| == 0 ==> (r == Pass <==> TextCellsOk(t))
    ensures !KeysOk(t, pk) ==> r.Fail? && (r.error.MissingKeyColumns? || r.error.DuplicateKeys?)
    ensures r.Fail? && r.error.BadTextField? ==> KeysOk(t, pk) && !TextCellsOk(t)
  {
    var k := KeyCheck(t, pk);
    if k.Fail? then k else TextCheck(t)
  }

  /** A table without rows passes the key check even when a key column is
      missing, since `duplicated` returns early on it. */
  lemma EmptyTableExample()
    ensures ValidateData(Table([Column("a", OtherKind)], []), ["user_id"]) == Pass
  {
  }

  /** Two rows with the same non-missing (user_id, transaction_id) = (5, 100)
      are rejected as duplicates, both of them reported. */
  lemma DuplicateKeyExample()
    ensures var t := Table([Column("user_id", OtherKind), Column("transaction_id", OtherKind)],
                           [[Int(5), Int(100)], [Int(5), Int(100)]]);
      ValidateData(t, ["user_id", "transaction_id"]) == Fail(DuplicateKeys([0, 1]))
  {
    var t := Table([Column("user_id", OtherKind), Column("transaction_id", OtherKind)],
                   [[Int(5), Int(100)], [Int(5), Int(100)]]);
    var pk := ["user_id", "transaction_id"];
    assert Names(t.columns) == pk;
    ExampleKeysPresent(pk);
    var p := Positions(pk, pk);
    var keys := KeyRows(t, p);
    assert keys[0] == keys[1];
    ExampleMarks(keys);
    SelectedBoth();
    assert DuplicateRows(t, p) == [0, 1];
    assert DuplicateCheck(t, pk) == Fail(DuplicateKeys([0, 1]));
    assert KeyCheck(t, pk) == Fail(DuplicateKeys([0, 1]));
  }

  lemma ExampleKeysPresent(pk: seq<string>)
    requires pk == ["user_id", "transaction_id"]
    ensures MissingNames(pk, pk) == []
  {
    assert MissingNames(pk[1..], pk) == [] by {
      assert pk[1..][1..] == [];
    }
  }

  /** Two equal keys are both marked. */
  lemma ExampleMarks(keys: seq<seq<Cell>>)
    requires |keys| == 2 && keys[0] == keys[1]
    ensures Duplicated(keys) == [true, true]
  {
    var marks := Duplicated(keys);
    assert marks[0] && marks[1];
  }

  lemma SelectedBoth()
    ensures Selected([true, true]) == [0, 1]
  {
    assert [true, true][..1] == [true];
    assert [true][..0] == [];
    assert Selected([true]) == [0];
  }

  /** Rows whose key cells are all missing still count as duplicates of one
      another: nothing exempts an all-missing key. */
  lemma AllMissingKeysAreDuplicates()
    ensures var t := Table([Column("user_id", OtherKind), Column("transaction_id", OtherKind)],
                           [[Null, Null], [Null, Null]]);
      ValidateData(t, ["user_id", "transaction_id"]).Fail?
  {
    var t := Table([Column("user_id", OtherKind), Column("transaction_id", OtherKind)],
                   [[Null, Null], [Null, Null]]);
    var pk := ["user_id", "transaction_id"];
    assert Names(t.columns) == pk;
    var p := Positions(Names(t.columns), pk);
    assert Project(t.rows[0], p) == Project(t.rows[1], p);
  }
}

=== FILE: merge.dfy ===
/** The enrichment step: pandas' `left.merge(right, on=key, how='left',
    suffixes=...)` and `merge_data`, which joins users with transactions and
    with deliveries. */
module Merge {
  import opened Wrappers
  import opened Tables

  datatype MergeError =
    | KeyColumnMissing(name: string)    // pandas raises KeyError
    | KeyColumnNotUnique(name: string)  // pandas raises ValueError
    | OverlapWithoutSuffix              // pandas raises ValueError

  /** `row` without its cell at position `k`. */
  function Drop(row: Row, k: nat): (r: Row)
    ensures k < |row| ==> |r| == |row| - 1
    ensures k < |row| ==> forall j {:trigger r[j]} :: 0 <= j < |r| ==> r[j] == if j < k then row[j] else row[j + 1]
  {
    if k < |row| then row[..k] + row[k + 1..] else row
  }

  function DropColumn(cols: seq<Column>, k: nat): (r: seq<Column>)
    requires k < |cols|
    ensures |r| == |cols| - 1
    ensures forall j {:trigger r[j]} :: 0 <= j < |r| ==> r[j] == if j < k then cols[j] else cols[j + 1]
  {
    cols[..k] + cols[k + 1..]
  }

  function Nulls(n: nat): (r: Row)
    ensures |r| == n && forall j :: 0 <= j < n ==> r[j] == Null
  {
    seq(n, j => Null)
  }

  /** The join-key column of `rows`. */
  function KeyColumn(rows: seq<Row>, k: nat): (r: seq<Cell>)
    ensures |r| == |rows| && forall j :: 0 <= j < |rows| ==> r[j] == At(rows[j], k)
  {
    seq(|rows|, j requires 0 <= j < |rows| => At(rows[j], k))
  }

  /** The rows of `rrows` whose key is `key`, in their original order.
      Keys compare as values, so a missing key matches a missing key, as in
      pandas. */
  function Matches(rrows: seq<Row>, kr: nat, key: Cell): seq<Row> {
    if |rrows| == 0 then []
    else (if At(rrows[0], kr) == key then [rrows[0]] else []) + Matches(rrows[1..], kr, key)
  }

  /** Every match carries the probed key and is one of the right rows. */
  lemma {:induction false} MatchesSound(rrows: seq<Row>, kr: nat, key: Cell)
    ensures forall t :: 0 <= t < |Matches(rrows, kr, key)| ==>
      At(Matches(rrows, kr, key)[t], kr) == key && Matches(rrows, kr, key)[t] in rrows
  {
    if |rrows| > 0 {
      MatchesSound(rrows[1..], kr, key);
      var h := if At(rrows[0], kr) == key then [rrows[0]] else [];
      var m, rest := Matches(rrows, kr, key), Matches(rrows[1..], kr, key);
      assert m == h + rest;
      forall t | 0 <= t < |m| ensures At(m[t], kr) == key && m[t] in rrows {
        if t < |h| {
          assert m[t] == rrows[0];
        } else {
          assert m[t] == rest[t - |h|];
        }
      }
    }
  }

  /** There are as many matches as right rows carrying the key. */
  lemma {:induction false} MatchesCount(rrows: seq<Row>, kr: nat, key: Cell)
    ensures |Matches(rrows, kr, key)| == multiset(KeyColumn(rrows, kr))[key]
  {
    if |rrows| > 0 {
      MatchesCount(rrows[1..], kr, key);
      assert KeyColumn(rrows, kr) == [At(rrows[0], kr)] + KeyColumn(rrows[1..], kr);
    }
  }

  /** Every right row carrying the key is among the matches. */
  lemma {:induction false} MatchesComplete(rrows: seq<Row>, kr: nat, key: Cell)
    ensures forall j :: 0 <= j < |rrows| && At(rrows[j], kr) == key ==> rrows[j] in Matches(rrows, kr, key)
  {
    if |rrows| > 0 {
      MatchesComplete(rrows[1..], kr, key);
      forall j | 1 <= j < |rrows| ensures rrows[j] == rrows[1..][j - 1] {}
    }
  }

  /** The merged rows produced by one left row: one per matching right row,
      or, when nothing matches, the left row padded with missing cells. */
  function Block(l: Row, kl: nat, rrows: seq<Row>, kr: nat, rw: nat): seq<Row>
    requires kr < rw
  {
    var m := Matches(rrows, kr, At(l, kl));
    if |m| == 0 then [l + Nulls(rw - 1)]
    else seq(|m|, t requires 0 <= t < |m| => l + Drop(m[t], kr))
  }

  /** The rows of the left join, left rows in order, each followed by its block. */
  function JoinRows(lrows: seq<Row>, kl: nat, rrows: seq<Row>, kr: nat, rw: nat): seq<Row>
    requires kr < rw
  {
    if |lrows| == 0 then []
    else Block(lrows[0], kl, rrows, kr, rw) + JoinRows(lrows[1..], kl, rrows, kr, rw)
  }

  /** Appends `sfx` to the names of the colliding columns. */
  function Rename(cols: seq<Column>, overlap: set<string>, sfx: string): (r: seq<Column>)
    ensures |r| == |cols|
    ensures forall i :: 0 <= i < |cols| ==> r[i].kind == cols[i].kind
    ensures forall i :: 0 <= i < |cols| && cols[i].name !in overlap ==> r[i] == cols[i]
    ensures forall i :: 0 <= i < |cols| && cols[i].name in overlap ==> r[i].name == cols[i].name + sfx
  {
    seq(|cols|, i requires 0 <= i < |cols| =>
      if cols[i].name in overlap then Column(cols[i].name + sfx, cols[i].kind) else cols[i])
  }

  /** The column names both sides share, the right key column left aside. */
  function Overlap(left: seq<Column>, rest: seq<Column>): (o: set<string>)
    ensures forall n :: n in o <==> n in Names(left) && n in Names(rest)
  {
    set n | n in Names(left) && n in Names(rest)
  }

  /** A left merge can go ahead: the key labels one column on each side, and
      colliding column names can be told apart. */
  predicate CanMerge(left: Table, right: Table, on: string, suffixes: (string, string)) {
    && Count(Names(left.columns), on) == 1
    && Count(Names(right.columns), on) == 1
    && (Overlap(left.columns, DropColumn(right.columns, IndexOf(Names(right.columns), on))) == {}
        || suffixes.0 != "" || suffixes.1 != "")
  }

  /** The merged table's columns: the left columns, then the right columns
      without the key, colliding names suffixed per side. */
  function MergeColumns(left: seq<Column>, rest: seq<Column>, suffixes: (string, string)): (cols: seq<Column>)
    ensures |cols| == |left| + |rest|
    ensures suffixes.0 == "" ==> cols[..|left|] == left
    ensures forall j :: 0 <= j < |rest| && rest[j].name !in Names(left) ==> cols[|left| + j] == rest[j]
    ensures forall j :: 0 <= j < |rest| && rest[j].name in Names(left) ==>
      cols[|left| + j] == Column(rest[j].name + suffixes.1, rest[j].kind)
    ensures forall i :: 0 <= i < |left| ==> cols[i].kind == left[i].kind
    ensures forall j :: 0 <= j < |rest| ==> cols[|left| + j].kind == rest[j].kind
  {
    var overlap := Overlap(left, rest);
    var lc := Rename(left, overlap, suffixes.0);
    var rc := Rename(rest, overlap, suffixes.1);
    assert suffixes.0 == "" ==> lc == left by {
      if suffixes.0 == "" {
        forall i | 0 <= i < |left| ensures lc[i] == left[i] {
          assert left[i].name + "" == left[i].name;
        }
      }
    }
    assert forall j :: 0 <= j < |rest| ==> (rest[j].name in overlap <==> rest[j].name in Names(left)) by {
      forall j | 0 <= j < |rest| ensures rest[j].name in Names(rest) {
        assert Names(rest)[j] == rest[j].name;
      }
    }
    lc + rc
  }

  /** `left.merge(right, on=on, how='left', suffixes=suffixes)`. pandas looks
      the key up in the right table before the left one, and checks the
      column names for collisions only once both lookups succeed. */
  function LeftMerge(left: Table, right: Table, on: string, suffixes: (string, string)): (r: Result<Table, MergeError>)
    requires WellFormed(left) && WellFormed(right)
    ensures r.Success? <==> CanMerge(left, right, on, suffixes)
    ensures Count(Names(right.columns), on) == 0 ==> r == Failure(KeyColumnMissing(on))
    ensures Count(Names(right.columns), on) > 1 ==> r == Failure(KeyColumnNotUnique(on))
    ensures Count(Names(right.columns), on) == 1 && Count(Names(left.columns), on) == 0 ==>
      r == Failure(KeyColumnMissing(on))
    ensures Count(Names(right.columns), on) == 1 && Count(Names(left.columns), on) > 1 ==>
      r == Failure(KeyColumnNotUnique(on))
    ensures (&& Count(Names(left.columns), on) == 1 && Count(Names(right.columns), on) == 1
             && suffixes == ("", "")
             && Overlap(left.columns, DropColumn(right.columns, IndexOf(Names(right.columns), on))) != {})
      ==> r == Failure(OverlapWithoutSuffix)
    ensures r.Success? ==>
      var kl := IndexOf(Names(left.columns), on);
      var kr := IndexOf(Names(right.columns), on);
      && WellFormed(r.value)
      && |r.value.columns| == |left.columns| + |right.columns| - 1
      && (suffixes.0 == "" ==> r.value.columns[..|left.columns|] == left.columns)
      && r.value.columns == MergeColumns(left.columns, DropColumn(right.columns, kr), suffixes)
      && r.value.rows == JoinRows(left.rows, kl, right.rows, kr, |right.columns|)
  {
    var ln := Names(left.columns);
    var rn := Names(right.columns);
    if Count(rn, on) == 0 then Failure(KeyColumnMissing(on))
    else if Count(rn, on) > 1 then Failure(KeyColumnNotUnique(on))
    else if Count(ln, on) == 0 then Failure(KeyColumnMissing(on))
    else if Count(ln, on) > 1 then Failure(KeyColumnNotUnique(on))
    else
      assert on in ln && on in rn;
      var kl := IndexOf(ln, on);
      var kr := IndexOf(rn, on);
      var rest := DropColumn(right.columns, kr);
      if Overlap(left.columns, rest) != {} && suffixes.0 == "" && suffixes.1 == "" then Failure(OverlapWithoutSuffix)
      else Success(MergedTable(left, right, kl, kr, suffixes))
  }

  /** The merged table once the key columns `kl` and `kr` are known: every
      joined row is as wide as the merged columns. */
  function MergedTable(left: Table, right: Table, kl: nat, kr: nat, suffixes: (string, string)): (t: Table)
    requires WellFormed(left) && WellFormed(right) && kl < |left.columns| && kr < |right.columns|
    ensures WellFormed(t) && |t.columns| == |left.columns| + |right.columns| - 1
    ensures t.columns == MergeColumns(left.columns, DropColumn(right.columns, kr), suffixes)
    ensures t.rows == JoinRows(left.rows, kl, right.rows, kr, |right.columns|)
  {
    var cols := MergeColumns(left.columns, DropColumn(right.columns, kr), suffixes);
    var rows := JoinRows(left.rows, kl, right.rows, kr, |right.columns|);
    JoinRowsWidth(left.rows, kl, right.rows, kr, |left.columns|, |right.columns|);
    assert forall i :: 0 <= i < |rows| ==> |rows[i]| == |cols|;
    Table(cols, rows)
  }

  /** The join column and the suffixes `merge_data` uses. */
  const UserIdColumn := "user_id"
  const TransactionSuffixes := ("", "_txn")
  const DeliverySuffixes := ("", "_dlv")

  /** `merge_data`: two independent left merges rooted at the users table,
      users with transactions and users with deliveries, both on `user_id`. */
  function MergeData(users: Table, transactions: Table, deliveries: Table): (r: Result<(Table, Table), MergeError>)
    requires WellFormed(users) && WellFormed(transactions) && WellFormed(deliveries)
    ensures r.Success? <==>
      CanMerge(users, transactions, UserIdColumn, TransactionSuffixes)
      && CanMerge(users, deliveries, UserIdColumn, DeliverySuffixes)
    ensures r.Success? ==>
      && LeftMerge(users, transactions, UserIdColumn, TransactionSuffixes) == Success(r.value.0)
      && LeftMerge(users, deliveries, UserIdColumn, DeliverySuffixes) == Success(r.value.1)
    ensures r.Success? ==>
      var ku := IndexOf(Names(users.columns), UserIdColumn);
      var kt := IndexOf(Names(transactions.columns), UserIdColumn);
      var kd := IndexOf(Names(deliveries.columns), UserIdColumn);
      && WellFormed(r.value.0) && WellFormed(r.value.1)
      && r.value.0.columns[..|users.columns|] == users.columns
      && r.value.1.columns[..|users.columns|] == users.columns
      && r.value.0.rows == JoinRows(users.rows, ku, transactions.rows, kt, |transactions.columns|)
      && r.value.1.rows == JoinRows(users.rows, ku, deliveries.rows, kd, |deliveries.columns|)
  {
    var tm := LeftMerge(users, transactions, UserIdColumn, TransactionSuffixes);
    var dm := LeftMerge(users, deliveries, UserIdColumn, DeliverySuffixes);
    if tm.Failure? then Failure(tm.error)
    else if dm.Failure? then Failure(dm.error)
    else Success((tm.value, dm.value))
  }

  /** Every merged row is as wide as the two tables less the right key. */
  lemma {:induction false} JoinRowsWidth(lrows: seq<Row>, kl: nat, rrows: seq<Row>, kr: nat, lw: nat, rw: nat)
    requires kr < rw
    requires forall i :: 0 <= i < |lrows| ==> |lrows[i]| == lw
    requires forall j :: 0 <= j < |rrows| ==> |rrows[j]| == rw
    ensures forall i :: 0 <= i < |JoinRows(lrows, kl, rrows, kr, rw)| ==>
      |JoinRows(lrows, kl, rrows, kr, rw)[i]| == lw + rw - 1
    decreases |lrows|
  {
    if |lrows| > 0 {
      JoinRowsWidth(lrows[1..], kl, rrows, kr, lw, rw);
      var b := Block(lrows[0], kl, rrows, kr, rw);
      var m := Matches(rrows, kr, At(lrows[0], kl));
      MatchesSound(rrows, kr, At(lrows[0], kl));
      forall t | 0 <= t < |m| ensures |m[t]| == rw {
        assert m[t] in rrows;
      }
      assert forall i :: 0 <= i < |b| ==> |b[i]| == lw + rw - 1;
      var rows := JoinRows(lrows, kl, rrows, kr, rw);
      assert rows == b + JoinRows(lrows[1..], kl, rrows, kr, rw);
    }
  }

  // ---------------------------------------------------------------------
  // Laws of the left join

  /** The row count the left join promises: each left row contributes as many
      rows as there are right rows with its key, and at least one. */
  function ExpectedRows(lrows: seq<Row>, kl: nat, rkeys: multiset<Cell>): nat {
    if |lrows| == 0 then 0
    else
      var k := rkeys[At(lrows[0], kl)];
      (if k == 0 then 1 else k) + ExpectedRows(lrows[1..], kl, rkeys)
  }

  lemma BlockCount(l: Row, kl: nat, rrows: seq<Row>, kr: nat, rw: nat)
    requires kr < rw
    ensures var k := multiset(KeyColumn(rrows, kr))[At(l, kl)];
      |Block(l, kl, rrows, kr, rw)| == if k == 0 then 1 else k
  {
    MatchesCount(rrows, kr, At(l, kl));
  }

  /** Row-count law: the join has, summed over the left rows,
      max(1, number of right rows with the same key) rows. */
  lemma {:induction false} JoinRowCount(lrows: seq<Row>, kl: nat, rrows: seq<Row>, kr: nat, rw: nat)
    requires kr < rw
    ensures |JoinRows(lrows, kl, rrows, kr, rw)| == ExpectedRows(lrows, kl, multiset(KeyColumn(rrows, kr)))
    decreases |lrows|
  {
    if |lrows| > 0 {
      BlockCount(lrows[0], kl, rrows, kr, rw);
      JoinRowCount(lrows[1..], kl, rrows, kr, rw);
    }
  }

  /** Merged row `o` comes from left row `l`: either `l` has no match and `o`
      is `l` padded with missing cells, or `o` is `l` followed by the non-key
      cells of a right row with the same key. */
  predicate Produces(l: Row, o: Row, kl: nat, rrows: seq<Row>, kr: nat, rw: nat)
    requires kr < rw
  {
    || (o == l + Nulls(rw - 1) && At(l, kl) !in KeyColumn(rrows, kr))
    || (exists j :: 0 <= j < |rrows| && At(rrows[j], kr) == At(l, kl) && o == l + Drop(rrows[j], kr))
  }

  /** Each row of a block is produced from its left row, and every right row
      with the same key yields one. */
  lemma BlockRows(l: Row, kl: nat, rrows: seq<Row>, kr: nat, rw: nat)
    requires kr < rw
    ensures forall o :: o in Block(l, kl, rrows, kr, rw) ==> Produces(l, o, kl, rrows, kr, rw)
    ensures forall j :: 0 <= j < |rrows| && At(rrows[j], kr) == At(l, kl) ==>
      l + Drop(rrows[j], kr) in Block(l, kl, rrows, kr, rw)
    ensures At(l, kl) !in KeyColumn(rrows, kr) ==> Block(l, kl, rrows, kr, rw) == [l + Nulls(rw - 1)]
  {
    BlockSound(l, kl, rrows, kr, rw);
    BlockComplete(l, kl, rrows, kr, rw);
    if At(l, kl) !in KeyColumn(rrows, kr) {
      MatchesCount(rrows, kr, At(l, kl));
      assert At(l, kl) !in multiset(KeyColumn(rrows, kr));
    }
  }

  /** Each row of a block is produced from its left row. */
  lemma BlockSound(l: Row, kl: nat, rrows: seq<Row>, kr: nat, rw: nat)
    requires kr < rw
    ensures forall o :: o in Block(l, kl, rrows, kr, rw) ==> Produces(l, o, kl, rrows, kr, rw)
  {
    var key := At(l, kl);
    var m := Matches(rrows, kr, key);
    var b := Block(l, kl, rrows, kr, rw);
    MatchesComplete(rrows, kr, key);
    MatchesSound(rrows, kr, key);
    if |m| == 0 {
      MatchesCount(rrows, kr, key);
      assert key !in multiset(KeyColumn(rrows, kr));
    } else {
      forall o | o in b ensures Produces(l, o, kl, rrows, kr, rw) {
        var t :| 0 <= t < |b| && b[t] == o;
        var j :| 0 <= j < |rrows| && rrows[j] == m[t];
        assert At(rrows[j], kr) == key && o == l + Drop(rrows[j], kr);
      }
    }
  }

  /** Every right row with the left row's key yields a row of the block. */
  lemma BlockComplete(l: Row, kl: nat, rrows: seq<Row>, kr: nat, rw: nat)
    requires kr < rw
    ensures forall j :: 0 <= j < |rrows| && At(rrows[j], kr) == At(l, kl) ==>
      l + Drop(rrows[j], kr) in Block(l, kl, rrows, kr, rw)
  {
    var key := At(l, kl);
    var m := Matches(rrows, kr, key);
    var b := Block(l, kl, rrows, kr, rw);
    MatchesComplete(rrows, kr, key);
    forall j | 0 <= j < |rrows| && At(rrows[j], kr) == key ensures l + Drop(rrows[j], kr) in b {
      var t :| 0 <= t < |m| && m[t] == rrows[j];
      assert b[t] == l + Drop(rrows[j], kr);
    }
  }

  /** Every merged row is produced from some left row. */
  lemma {:induction false} JoinRowsSound(lrows: seq<Row>, kl: nat, rrows: seq<Row>, kr: nat, rw: nat)
    requires kr < rw
    ensures forall o :: o in JoinRows(lrows, kl, rrows, kr, rw) ==>
      exists i :: 0 <= i < |lrows| && Produces(lrows[i], o, kl, rrows, kr, rw)
    decreases |lrows|
  {
    if |lrows| > 0 {
      BlockRows(lrows[0], kl, rrows, kr, rw);
      JoinRowsSound(lrows[1..], kl, rrows, kr, rw);
      var b := Block(lrows[0], kl, rrows, kr, rw);
      var rest := JoinRows(lrows[1..], kl, rrows, kr, rw);
      assert JoinRows(lrows, kl, rrows, kr, rw) == b + rest;
      forall o | o in b + rest
        ensures exists i :: 0 <= i < |lrows| && Produces(lrows[i], o, kl, rrows, kr, rw)
      {
        if o in b {
          assert Produces(lrows[0], o, kl, rrows, kr, rw);
        } else {
          assert o in rest;
          var i :| 0 <= i < |lrows[1..]| && Produces(lrows[1..][i], o, kl, rrows, kr, rw);
          assert lrows[1..][i] == lrows[i + 1];
        }
      }
    }
  }

  /** Every left row survives: a left row without a match appears once padded
      with missing cells, and a left row appears with every right row that
      shares its key. */
  lemma {:induction false} JoinRowsComplete(lrows: seq<Row>, kl: nat, rrows: seq<Row>, kr: nat, rw: nat)
    requires kr < rw
    ensures forall i :: 0 <= i < |lrows| && At(lrows[i], kl) !in KeyColumn(rrows, kr) ==>
      lrows[i] + Nulls(rw - 1) in JoinRows(lrows, kl, rrows, kr, rw)
    ensures forall i, j :: 0 <= i < |lrows| && 0 <= j < |rrows| && At(rrows[j], kr) == At(lrows[i], kl) ==>
      lrows[i] + Drop(rrows[j], kr) in JoinRows(lrows, kl, rrows, kr, rw)
    decreases |lrows|
  {
    JoinRowsKeepsUnmatched(lrows, kl, rrows, kr, rw);
    JoinRowsKeepsMatched(lrows, kl, rrows, kr, rw);
  }

  /** A left row without a match appears padded with missing cells. */
  lemma {:induction false} JoinRowsKeepsUnmatched(lrows: seq<Row>, kl: nat, rrows: seq<Row>, kr: nat, rw: nat)
    requires kr < rw
    ensures forall i :: 0 <= i < |lrows| && At(lrows[i], kl) !in KeyColumn(rrows, kr) ==>
      lrows[i] + Nulls(rw - 1) in JoinRows(lrows, kl, rrows, kr, rw)
    decreases |lrows|
  {
    if |lrows| > 0 {
      var tail := lrows[1..];
      var b, rest := Block(lrows[0], kl, rrows, kr, rw), JoinRows(tail, kl, rrows, kr, rw);
      BlockRows(lrows[0], kl, rrows, kr, rw);
      JoinRowsKeepsUnmatched(tail, kl, rrows, kr, rw);
      assert JoinRows(lrows, kl, rrows, kr, rw) == b + rest;
      forall i | 0 <= i < |lrows| && At(lrows[i], kl) !in KeyColumn(rrows, kr)
        ensures lrows[i] + Nulls(rw - 1) in b + rest
      {
        if i == 0 {
          assert b[0] == lrows[0] + Nulls(rw - 1);
        } else {
          assert lrows[i] == tail[i - 1];
          assert lrows[i] + Nulls(rw - 1) in rest;
        }
      }
    }
  }

  /** A left row appears joined with every right row that shares its key. */
  lemma {:induction false} JoinRowsKeepsMatched(lrows: seq<Row>, kl: nat, rrows: seq<Row>, kr: nat, rw: nat)
    requires kr < rw
    ensures forall i, j :: 0 <= i < |lrows| && 0 <= j < |rrows| && At(rrows[j], kr) == At(lrows[i], kl) ==>
      lrows[i] + Drop(rrows[j], kr) in JoinRows(lrows, kl, rrows, kr, rw)
    decreases |lrows|
  {
    if |lrows| > 0 {
      var tail := lrows[1..];
      var b, rest := Block(lrows[0], kl, rrows, kr, rw), JoinRows(tail, kl, rrows, kr, rw);
      BlockRows(lrows[0], kl, rrows, kr, rw);
      JoinRowsKeepsMatched(tail, kl, rrows, kr, rw);
      assert JoinRows(lrows, kl, rrows, kr, rw) == b + rest;
      forall i, j | 0 <= i < |lrows| && 0 <= j < |rrows| && At(rrows[j], kr) == At(lrows[i], kl)
        ensures lrows[i] + Drop(rrows[j], kr) in b + rest
      {
        if i == 0 {
          assert lrows[i] + Drop(rrows[j], kr) in b;
        } else {
          assert lrows[i] == tail[i - 1];
          assert lrows[i] + Drop(rrows[j], kr) in rest;
        }
      }
    }
  }


  /** "All users are retained": each left row begins at least one merged row. */
  lemma LeftRowsRetained(lrows: seq<Row>, kl: nat, rrows: seq<Row>, kr: nat, rw: nat)
    requires kr < rw
    ensures forall i :: 0 <= i < |lrows| ==>
      exists o :: o in JoinRows(lrows, kl, rrows, kr, rw) && |lrows[i]| <= |o| && o[..|lrows[i]|] == lrows[i]
  {
    JoinRowsComplete(lrows, kl, rrows, kr, rw);
    forall i | 0 <= i < |lrows|
      ensures exists o :: o in JoinRows(lrows, kl, rrows, kr, rw) && |lrows[i]| <= |o| && o[..|lrows[i]|] == lrows[i]
    {
      var l := lrows[i];
      if At(l, kl) in KeyColumn(rrows, kr) {
        var j :| 0 <= j < |rrows| && KeyColumn(rrows, kr)[j] == At(l, kl);
        var o := l + Drop(rrows[j], kr);
        assert o[..|l|] == l;
      } else {
        var o := l + Nulls(rw - 1);
        assert o[..|l|] == l;
      }
    }
  }

  /** A right row whose key no left row carries contributes nothing: the join
      is the same with that row deleted. */
  lemma {:induction false} UnmatchedRightRowDropped(lrows: seq<Row>, kl: nat, rrows: seq<Row>, kr: nat, rw: nat, j: nat)
    requires kr < rw && j < |rrows|
    requires At(rrows[j], kr) !in KeyColumn(lrows, kl)
    ensures JoinRows(lrows, kl, rrows, kr, rw) == JoinRows(lrows, kl, rrows[..j] + rrows[j + 1..], kr, rw)
    decreases |lrows|
  {
    if |lrows| > 0 {
      var rrows' := rrows[..j] + rrows[j + 1..];
      var key := At(lrows[0], kl);
      assert KeyColumn(lrows, kl)[0] == key;
      MatchesWithout(rrows, kr, key, j);
      assert Block(lrows[0], kl, rrows, kr, rw) == Block(lrows[0], kl, rrows', kr, rw);
      forall x | x in KeyColumn(lrows[1..], kl) ensures x in KeyColumn(lrows, kl) {
        var i :| 0 <= i < |lrows[1..]| && KeyColumn(lrows[1..], kl)[i] == x;
        assert KeyColumn(lrows, kl)[i + 1] == x;
      }
      UnmatchedRightRowDropped(lrows[1..], kl, rrows, kr, rw, j);
    }
  }

  /** Deleting a right row with another key leaves the matches unchanged. */
  lemma MatchesWithout(rrows: seq<Row>, kr: nat, key: Cell, j: nat)
    requires j < |rrows| && At(rrows[j], kr) != key
    ensures Matches(rrows, kr, key) == Matches(rrows[..j] + rrows[j + 1..], kr, key)
  {
    var a := rrows[..j];
    var c := rrows[j + 1..];
    var x := [rrows[j]];
    assert Matches(x, kr, key) == [] by {
      assert x[1..] == [];
    }
    MatchesSplit(x, c, kr, key);
    assert Matches(x + c, kr, key) == Matches(c, kr, key);
    MatchesSplit(a, x + c, kr, key);
    MatchesSplit(a, c, kr, key);
    assert a + (x + c) == rrows;
  }

  lemma {:induction false} MatchesSplit(a: seq<Row>, b: seq<Row>, kr: nat, key: Cell)
    ensures Matches(a + b, kr, key) == Matches(a, kr, key) + Matches(b, kr, key)
    decreases |a|
  {
    if |a| > 0 {
      var h := if At(a[0], kr) == key then [a[0]] else [];
      HeadOfConcat(a, b);
      MatchesSplit(a[1..], b, kr, key);
      ConcatAssoc(h, Matches(a[1..], kr, key), Matches(b, kr, key));
    } else {
      assert a + b == b;
    }
  }

  lemma HeadOfConcat<T>(a: seq<T>, b: seq<T>)
    requires |a| > 0
    ensures (a + b)[0] == a[0] && (a + b)[1..] == a[1..] + b
  {
  }

  lemma ConcatAssoc<T>(x: seq<T>, y: seq<T>, z: seq<T>)
    ensures x + (y + z) == (x + y) + z
  {
  }

  /** The right table's key is looked up first: with `user_id` twice on the
      left and not at all on the right, the merge reports the missing key. */
  lemma RightKeyFirstExample()
    ensures LeftMerge(Table([Column("user_id", OtherKind), Column("user_id", OtherKind)], []),
                      Table([Column("amount", OtherKind)], []), "user_id", ("", "_txn"))
      == Failure(KeyColumnMissing("user_id"))
  {
    assert Names([Column("amount", OtherKind)]) == ["amount"];
  }

  /** The merged rows of one left row keep that row's cells in front. */
  lemma ProducedKeepsLeft(l: Row, o: Row, kl: nat, rrows: seq<Row>, kr: nat, rw: nat)
    requires kr < rw && kl < |l|
    requires Produces(l, o, kl, rrows, kr, rw)
    ensures |l| <= |o| && o[..|l|] == l && At(o, kl) == At(l, kl)
  {
    if o == l + Nulls(rw - 1) {
    } else {
      var j :| 0 <= j < |rrows| && At(rrows[j], kr) == At(l, kl) && o == l + Drop(rrows[j], kr);
    }
  }

  /** Filtering a table keeps a column's values distinct. */
  lemma {:induction false} MatchesUnique(rrows: seq<Row>, kr: nat, key: Cell, c: nat)
    requires UniqueOn(rrows, [c])
    ensures UniqueOn(Matches(rrows, kr, key), [c])
  {
    if |rrows| > 0 {
      var rest := rrows[1..];
      assert UniqueOn(rest, [c]) by {
        forall i, j | 0 <= i < j < |rest| ensures Project(rest[i], [c]) != Project(rest[j], [c]) {
          assert rest[i] == rrows[i + 1] && rest[j] == rrows[j + 1];
        }
      }
      MatchesUnique(rest, kr, key, c);
      MatchesSound(rest, kr, key);
      var h := if At(rrows[0], kr) == key then [rrows[0]] else [];
      forall x, y | x in h && y in Matches(rest, kr, key) ensures Project(x, [c]) != Project(y, [c]) {
        var j :| 0 <= j < |rest| && rest[j] == y;
        assert y == rrows[j + 1];
      }
      UniqueOnConcat(h, Matches(rest, kr, key), [c]);
    }
  }

  /** Where the right table's column `c` lands in a merged row. */
  function MergedPosition(lw: nat, kr: nat, c: nat): nat
    requires c != kr
  {
    lw + if c < kr then c else c - 1
  }

  /** In a row joined from `l` and right row `r`, the right table's column
      `c` sits at its merged position. */
  lemma JoinedCell(l: Row, r: Row, kr: nat, c: nat)
    requires kr < |r| && c < |r| && c != kr
    ensures At(l + Drop(r, kr), MergedPosition(|l|, kr, c)) == At(r, c)
  {
    var o := l + Drop(r, kr);
    var j := if c < kr then c else c - 1;
    assert o[|l| + j] == Drop(r, kr)[j];
  }

  /** The rows of one left row's block differ on the right table's key. */
  lemma BlockUnique(l: Row, kl: nat, rrows: seq<Row>, kr: nat, rw: nat, c: nat)
    requires kr < rw && c < rw && c != kr && kl < |l|
    requires forall j :: 0 <= j < |rrows| ==> |rrows[j]| == rw
    requires UniqueOn(rrows, [c])
    ensures UniqueOn(Block(l, kl, rrows, kr, rw), [kl, MergedPosition(|l|, kr, c)])
  {
    var p := MergedPosition(|l|, kr, c);
    var m := Matches(rrows, kr, At(l, kl));
    var b := Block(l, kl, rrows, kr, rw);
    if |m| > 0 {
      MatchesUnique(rrows, kr, At(l, kl), c);
      MatchesSound(rrows, kr, At(l, kl));
      forall s, t | 0 <= s < t < |b| ensures Project(b[s], [kl, p]) != Project(b[t], [kl, p]) {
        BlockPairDiffers(l, kl, m, kr, rw, c, s, t);
      }
    }
  }

  lemma BlockPairDiffers(l: Row, kl: nat, m: seq<Row>, kr: nat, rw: nat, c: nat, s: nat, t: nat)
    requires kr < rw && c < rw && c != kr && s < t < |m|
    requires |m[s]| == rw && |m[t]| == rw
    requires UniqueOn(m, [c])
    ensures var p := MergedPosition(|l|, kr, c);
      Project(l + Drop(m[s], kr), [kl, p]) != Project(l + Drop(m[t], kr), [kl, p])
  {
    var p := MergedPosition(|l|, kr, c);
    JoinedCell(l, m[s], kr, c);
    JoinedCell(l, m[t], kr, c);
    assert Project(m[s], [c])[0] != Project(m[t], [c])[0];
    assert Project(l + Drop(m[s], kr), [kl, p])[1] != Project(l + Drop(m[t], kr), [kl, p])[1];
  }

  /** The key-uniqueness law of the left join: if the left table is unique on
      its join key and the right table unique on column `c`, then the merged
      table is unique on (join key, merged column of `c`). A left row without
      a match holds a missing cell there, yet no other row shares its join key. */
  lemma {:induction false} JoinKeysUnique(lrows: seq<Row>, kl: nat, lw: nat, rrows: seq<Row>, kr: nat, rw: nat, c: nat)
    requires kr < rw && c < rw && c != kr && kl < lw
    requires forall i :: 0 <= i < |lrows| ==> |lrows[i]| == lw
    requires forall j :: 0 <= j < |rrows| ==> |rrows[j]| == rw
    requires UniqueOn(lrows, [kl]) && UniqueOn(rrows, [c])
    ensures UniqueOn(JoinRows(lrows, kl, rrows, kr, rw), [kl, MergedPosition(lw, kr, c)])
    decreases |lrows|
  {
    if |lrows| > 0 {
      var cols := [kl, MergedPosition(lw, kr, c)];
      var l := lrows[0];
      var tail := lrows[1..];
      assert UniqueOn(tail, [kl]) by {
        forall i, j | 0 <= i < j < |tail| ensures Project(tail[i], [kl]) != Project(tail[j], [kl]) {
          assert tail[i] == lrows[i + 1] && tail[j] == lrows[j + 1];
        }
      }
      JoinKeysUnique(tail, kl, lw, rrows, kr, rw, c);
      BlockUnique(l, kl, rrows, kr, rw, c);
      BlockRows(l, kl, rrows, kr, rw);
      JoinRowsSound(tail, kl, rrows, kr, rw);
      var b := Block(l, kl, rrows, kr, rw);
      var rest := JoinRows(tail, kl, rrows, kr, rw);
      assert JoinRows(lrows, kl, rrows, kr, rw) == b + rest;
      JoinKeysStep(lrows, kl, lw, rrows, kr, rw, cols, b, rest);
    }
  }

  /** The step of `JoinKeysUnique`: the first left row's block and the rows
      produced from the other left rows stay apart on the key. */
  lemma JoinKeysStep(lrows: seq<Row>, kl: nat, lw: nat, rrows: seq<Row>, kr: nat, rw: nat, cols: seq<nat>,
                     b: seq<Row>, rest: seq<Row>)
    requires kr < rw && kl < lw && |lrows| > 0 && |cols| > 0 && cols[0] == kl
    requires forall i :: 0 <= i < |lrows| ==> |lrows[i]| == lw
    requires UniqueOn(lrows, [kl]) && UniqueOn(b, cols) && UniqueOn(rest, cols)
    requires forall x :: x in b ==> Produces(lrows[0], x, kl, rrows, kr, rw)
    requires forall y :: y in rest ==>
      exists i :: 0 <= i < |lrows[1..]| && Produces(lrows[1..][i], y, kl, rrows, kr, rw)
    ensures UniqueOn(b + rest, cols)
  {
    var tail := lrows[1..];
    forall x, y | x in b && y in rest ensures Project(x, cols) != Project(y, cols) {
      var i :| 0 <= i < |tail| && Produces(tail[i], y, kl, rrows, kr, rw);
      assert tail[i] == lrows[i + 1];
      assert Project(lrows[0], [kl]) != Project(lrows[i + 1], [kl]);
      ProducedApart(lrows[0], x, tail[i], y, kl, rrows, kr, rw, cols);
    }
    UniqueOnConcat(b, rest, cols);
  }

  /** Rows produced from left rows with different join keys differ on any
      key that starts with the join key. */
  lemma ProducedApart(l1: Row, o1: Row, l2: Row, o2: Row, kl: nat, rrows: seq<Row>, kr: nat, rw: nat, cols: seq<nat>)
    requires kr < rw && kl < |l1| && kl < |l2| && |cols| > 0 && cols[0] == kl
    requires Produces(l1, o1, kl, rrows, kr, rw) && Produces(l2, o2, kl, rrows, kr, rw)
    requires Project(l1, [kl]) != Project(l2, [kl])
    ensures Project(o1, cols) != Project(o2, cols)
  {
    ProducedKeepsLeft(l1, o1, kl, rrows, kr, rw);
    ProducedKeepsLeft(l2, o2, kl, rrows, kr, rw);
    assert Project(l1, [kl])[0] != Project(l2, [kl])[0];
    assert Project(o1, cols)[0] != Project(o2, cols)[0];
  }
}

=== FILE: pipeline.dfy ===
/** The stages chained as the ETL run chains them: transform the three raw
    tables, lay them out as tables, merge, and validate both merged tables
    with their composite keys. */
module Pipeline {
  import opened Wrappers
  import opened Text
  import opened Dedup
  import opened Transform
  import opened Tables
  import opened Merge
  import opened Load

  // ---------------------------------------------------------------------
  // The cleaned entities as tables

  function IdCell(id: Id): Cell {
    match id
    case None => Null
    case Some(i) => Int(i)
  }

  function TextCell(v: Option<string>): Cell {
    match v
    case None => Null
    case Some(s) => Str(s)
  }

  function AmountCell(v: Option<real>): Cell {
    match v
    case None => Null
    case Some(x) => Dec(x)
  }

  const UserColumns: seq<Column> :=
    [Column("user_id", OtherKind), Column("join_date", TextKind), Column("name", TextKind), Column("email", TextKind)]

  const TransactionColumns: seq<Column> :=
    [Column("transaction_id", OtherKind), Column("user_id", OtherKind), Column("timestamp", TextKind),
     Column("amount", OtherKind), Column("transaction_type", TextKind)]

  const DeliveryColumns: seq<Column> :=
    [Column("package_id", OtherKind), Column("user_id", OtherKind), Column("delivery_date", TextKind),
     Column("courier", TextKind), Column("delivery_status", TextKind)]

  function UserRow(u: User): Row {
    [IdCell(u.userId), TextCell(u.joinDate), Str(u.name), Str(u.email)]
  }

  function TransactionRow(t: Transaction): Row {
    [IdCell(t.transactionId), IdCell(t.userId), TextCell(t.timestamp), AmountCell(t.amount), Str(t.transactionType)]
  }

  function DeliveryRow(d: Delivery): Row {
    [IdCell(d.packageId), IdCell(d.userId), TextCell(d.deliveryDate), Str(d.courier), Str(d.deliveryStatus)]
  }

  function UsersTable(us: seq<User>): (t: Table)
    ensures WellFormed(t) && |t.rows| == |us|
    ensures forall i :: 0 <= i < |us| ==> t.rows[i] == UserRow(us[i])
  {
    Table(UserColumns, seq(|us|, i requires 0 <= i < |us| => UserRow(us[i])))
  }

  function TransactionsTable(ts: seq<Transaction>): (t: Table)
    ensures WellFormed(t) && |t.rows| == |ts|
    ensures forall i :: 0 <= i < |ts| ==> t.rows[i] == TransactionRow(ts[i])
  {
    Table(TransactionColumns, seq(|ts|, i requires 0 <= i < |ts| => TransactionRow(ts[i])))
  }

  function DeliveriesTable(ds: seq<Delivery>): (t: Table)
    ensures WellFormed(t) && |t.rows| == |ds|
    ensures forall i :: 0 <= i < |ds| ==> t.rows[i] == DeliveryRow(ds[i])
  {
    Table(DeliveryColumns, seq(|ds|, i requires 0 <= i < |ds| => DeliveryRow(ds[i])))
  }

  // ---------------------------------------------------------------------
  // The merge on these schemas

  lemma SchemaNames()
    ensures Names(UserColumns) == ["user_id", "join_date", "name", "email"]
    ensures Names(TransactionColumns) == ["transaction_id", "user_id", "timestamp", "amount", "transaction_type"]
    ensures Names(DeliveryColumns) == ["package_id", "user_id", "delivery_date", "courier", "delivery_status"]
    ensures Names(DropColumn(TransactionColumns, 1)) == ["transaction_id", "timestamp", "amount", "transaction_type"]
    ensures Names(DropColumn(DeliveryColumns, 1)) == ["package_id", "delivery_date", "courier", "delivery_status"]
  {
    var trest := DropColumn(TransactionColumns, 1);
    var drest := DropColumn(DeliveryColumns, 1);
    assert |trest| == 4 && trest[0] == TransactionColumns[0] && trest[1] == TransactionColumns[2];
    assert trest[2] == TransactionColumns[3] && trest[3] == TransactionColumns[4];
    assert |drest| == 4 && drest[0] == DeliveryColumns[0] && drest[1] == DeliveryColumns[2];
    assert drest[2] == DeliveryColumns[3] && drest[3] == DeliveryColumns[4];
  }

  lemma NamesApart()
    ensures forall n :: n in ["transaction_id", "timestamp", "amount", "transaction_type"] ==>
      n !in ["user_id", "join_date", "name", "email"]
    ensures forall n :: n in ["package_id", "delivery_date", "courier", "delivery_status"] ==>
      n !in ["user_id", "join_date", "name", "email"]
  {
  }

  /** Apart from `user_id`, users share no column name with transactions or
      with deliveries, so `merge_data`'s suffixes never apply and both merges
      go ahead. */
  lemma SchemasMerge(users: Table, transactions: Table, deliveries: Table)
    requires users.columns == UserColumns
    requires transactions.columns == TransactionColumns
    requires deliveries.columns == DeliveryColumns
    ensures CanMerge(users, transactions, UserIdColumn, TransactionSuffixes)
    ensures CanMerge(users, deliveries, UserIdColumn, DeliverySuffixes)
    ensures IndexOf(Names(users.columns), UserIdColumn) == 0
    ensures IndexOf(Names(transactions.columns), UserIdColumn) == 1
    ensures IndexOf(Names(deliveries.columns), UserIdColumn) == 1
    ensures Overlap(UserColumns, DropColumn(TransactionColumns, 1)) == {}
    ensures Overlap(UserColumns, DropColumn(DeliveryColumns, 1)) == {}
  {
    UserSchema();
    TransactionSchema();
    DeliverySchema();
  }

  /** `user_id` is the first and only user column of that name. */
  lemma UserSchema()
    ensures Count(Names(UserColumns), UserIdColumn) == 1
    ensures IndexOf(Names(UserColumns), UserIdColumn) == 0
  {
    SchemaNames();
    assert Count(Names(UserColumns), "user_id") == 1;
  }

  /** Transactions carry `user_id` once, second, and share no other name
      with users. */
  lemma TransactionSchema()
    ensures Count(Names(TransactionColumns), UserIdColumn) == 1
    ensures IndexOf(Names(TransactionColumns), UserIdColumn) == 1
    ensures Overlap(UserColumns, DropColumn(TransactionColumns, 1)) == {}
  {
    SchemaNames();
    NamesApart();
    assert Count(Names(TransactionColumns), "user_id") == 1;
  }

  /** Deliveries carry `user_id` once, second, and share no other name with
      users. */
  lemma DeliverySchema()
    ensures Count(Names(DeliveryColumns), UserIdColumn) == 1
    ensures IndexOf(Names(DeliveryColumns), UserIdColumn) == 1
    ensures Overlap(UserColumns, DropColumn(DeliveryColumns, 1)) == {}
  {
    SchemaNames();
    NamesApart();
    assert Count(Names(DeliveryColumns), "user_id") == 1;
  }

  /** With no overlapping names, a merged table's columns are the left
      columns followed by the right columns without the key. */
  lemma MergedColumns(left: seq<Column>, rest: seq<Column>, suffixes: (string, string))
    requires suffixes.0 == "" && Overlap(left, rest) == {}
    ensures MergeColumns(left, rest, suffixes) == left + rest
  {
    var cols := MergeColumns(left, rest, suffixes);
    forall j | 0 <= j < |rest| ensures cols[|left| + j] == rest[j] {
      assert Names(rest)[j] == rest[j].name;
      assert rest[j].name !in Overlap(left, rest);
    }
    assert cols[..|left|] == left;
  }

  lemma MergedPositions()
    ensures Names(UserColumns + DropColumn(TransactionColumns, 1))
      == ["user_id", "join_date", "name", "email", "transaction_id", "timestamp", "amount", "transaction_type"]
    ensures Names(UserColumns + DropColumn(DeliveryColumns, 1))
      == ["user_id", "join_date", "name", "email", "package_id", "delivery_date", "courier", "delivery_status"]
    ensures Positions(Names(UserColumns + DropColumn(TransactionColumns, 1)), ["user_id", "transaction_id"]) == [0, 4]
    ensures Positions(Names(UserColumns + DropColumn(DeliveryColumns, 1)), ["user_id", "package_id"]) == [0, 4]
  {
    MergedTransactionPositions();
    MergedDeliveryPositions();
  }

  /** `MergedPositions` for the users-transactions table. */
  lemma MergedTransactionPositions()
    ensures Names(UserColumns + DropColumn(TransactionColumns, 1))
      == ["user_id", "join_date", "name", "email", "transaction_id", "timestamp", "amount", "transaction_type"]
    ensures Positions(Names(UserColumns + DropColumn(TransactionColumns, 1)), ["user_id", "transaction_id"]) == [0, 4]
  {
    SchemaNames();
    var tn := Names(UserColumns + DropColumn(TransactionColumns, 1));
    assert tn == ["user_id", "join_date", "name", "email", "transaction_id", "timestamp", "amount", "transaction_type"];
    assert IndexOf(tn, "transaction_id") == 4 by {
      assert |tn[0]| == 7 && |tn[1]| == 9 && |tn[2]| == 4 && |tn[3]| == 5;
    }
  }

  /** `MergedPositions` for the users-deliveries table. */
  lemma MergedDeliveryPositions()
    ensures Names(UserColumns + DropColumn(DeliveryColumns, 1))
      == ["user_id", "join_date", "name", "email", "package_id", "delivery_date", "courier", "delivery_status"]
    ensures Positions(Names(UserColumns + DropColumn(DeliveryColumns, 1)), ["user_id", "package_id"]) == [0, 4]
  {
    SchemaNames();
    var dn := Names(UserColumns + DropColumn(DeliveryColumns, 1));
    assert dn == ["user_id", "join_date", "name", "email", "package_id", "delivery_date", "courier", "delivery_status"];
    assert IndexOf(dn, "package_id") == 4 by {
      assert |dn[0]| == 7 && |dn[1]| == 9 && |dn[2]| == 4 && |dn[3]| == 5;
    }
  }

  /** A table laid out from key-unique records is unique on the key column. */
  lemma UniqueRows<T>(xs: seq<T>, key: T -> Id, rows: seq<Row>, col: nat)
    requires |rows| == |xs|
    requires forall i :: 0 <= i < |xs| ==> At(rows[i], col) == IdCell(key(xs[i]))
    requires UniqueBy(xs, key)
    ensures UniqueOn(rows, [col])
  {
    forall i, j | 0 <= i < j < |rows| ensures Project(rows[i], [col]) != Project(rows[j], [col]) {
      assert key(xs[i]) != key(xs[j]);
      assert IdCell(key(xs[i])) != IdCell(key(xs[j]));
      assert Project(rows[i], [col])[0] != Project(rows[j], [col])[0];
    }
  }

  /** The transformed, laid-out tables that `merge_data` receives. */
  function Cleaned(c: Cleaners, ru: seq<RawUser>, rt: seq<RawTransaction>, rd: seq<RawDelivery>): (r: (Table, Table, Table))
    ensures WellFormed(r.0) && WellFormed(r.1) && WellFormed(r.2)
    ensures r.0.columns == UserColumns && r.1.columns == TransactionColumns && r.2.columns == DeliveryColumns
  {
    (UsersTable(TransformUsers(c, ru)), TransactionsTable(TransformTransactions(c, rt)),
     DeliveriesTable(TransformDeliveries(c, rd)))
  }

  /** The cross-stage law: because the users are de-duplicated by `user_id`
      and the transactions (deliveries) by `transaction_id` (`package_id`),
      the merge succeeds and each merged table is unique on its composite key
      (`user_id`, `transaction_id`) / (`user_id`, `package_id`), so it passes
      the duplicate-key check of `validate_data`. */
  lemma MergedKeysUnique(c: Cleaners, ru: seq<RawUser>, rt: seq<RawTransaction>, rd: seq<RawDelivery>)
    ensures var t := Cleaned(c, ru, rt, rd);
      var m := MergeData(t.0, t.1, t.2);
      && m.Success?
      && m.value.0.columns == UserColumns + DropColumn(TransactionColumns, 1)
      && m.value.1.columns == UserColumns + DropColumn(DeliveryColumns, 1)
      && KeysOk(m.value.0, ["user_id", "transaction_id"])
      && KeysOk(m.value.1, ["user_id", "package_id"])
  {
    var t := Cleaned(c, ru, rt, rd);
    var us, ts, ds := TransformUsers(c, ru), TransformTransactions(c, rt), TransformDeliveries(c, rd);
    SchemasMerge(t.0, t.1, t.2);
    var m := MergeData(t.0, t.1, t.2);
    MergedColumns(UserColumns, DropColumn(TransactionColumns, 1), TransactionSuffixes);
    MergedColumns(UserColumns, DropColumn(DeliveryColumns, 1), DeliverySuffixes);
    MergedPositions();
    UniqueRows(us, UserKey, t.0.rows, 0);
    UniqueRows(ts, TransactionKey, t.1.rows, 0);
    UniqueRows(ds, DeliveryKey, t.2.rows, 0);
    JoinKeysUnique(t.0.rows, 0, 4, t.1.rows, 1, 5, 0);
    JoinKeysUnique(t.0.rows, 0, 4, t.2.rows, 1, 5, 0);
    assert MergedPosition(4, 1, 0) == 4;
    var pt := ["user_id", "transaction_id"];
    var pd := ["user_id", "package_id"];
    assert forall n :: n in pt ==> n in Names(m.value.0.columns);
    assert forall n :: n in pd ==> n in Names(m.value.1.columns);
  }

  // ---------------------------------------------------------------------
  // Text cells through the merge

  /** Where cell `j` of a right row's non-key part comes from. */
  function SourceColumn(j: nat, kr: nat): nat {
    if j < kr then j else j + 1
  }

  /** A cell of a merged row is the left row's cell, the padding, or the
      cell of the matching right row `rj` in the column it comes from. */
  lemma ProducedCell(l: Row, o: Row, kl: nat, rrows: seq<Row>, kr: nat, rw: nat, lw: nat, k: nat) returns (rj: nat)
    requires kr < rw && kl < |l| && |l| == lw
    requires forall j :: 0 <= j < |rrows| ==> |rrows[j]| == rw
    requires Produces(l, o, kl, rrows, kr, rw)
    requires k < lw + rw - 1
    ensures k < lw ==> At(o, k) == At(l, k)
    ensures k >= lw && At(o, k) != Null ==>
      && rj < |rrows| && At(rrows[rj], kr) == At(l, kl)
      && At(o, k) == At(rrows[rj], SourceColumn(k - lw, kr))
  {
    rj := 0;
    if o == l + Nulls(rw - 1) {
      assert o[k] == if k < |l| then l[k] else Nulls(rw - 1)[k - |l|];
    } else {
      rj :| 0 <= rj < |rrows| && At(rrows[rj], kr) == At(l, kl) && o == l + Drop(rrows[rj], kr);
      if k < |l| {
        assert o[k] == l[k];
      } else {
        JoinedRowCell(l, rrows[rj], kr, k);
      }
    }
  }

  /** Past the left cells, a joined row holds the right row's non-key cells. */
  lemma JoinedRowCell(l: Row, r: Row, kr: nat, k: nat)
    requires kr < |r| && |l| <= k < |l| + |r| - 1
    ensures At(l + Drop(r, kr), k) == At(r, SourceColumn(k - |l|, kr))
  {
    assert (l + Drop(r, kr))[k] == Drop(r, kr)[k - |l|];
  }

  /** A left merge keeps the text requirement: every text cell of the merged
      table is a cell of a text column of one of the inputs, or the missing
      cell that pads a left row without a match. */
  lemma MergePreservesText(left: Table, right: Table, on: string, suffixes: (string, string))
    requires WellFormed(left) && WellFormed(right) && CanMerge(left, right, on, suffixes)
    requires TextCellsOk(left) && TextCellsOk(right)
    ensures TextCellsOk(LeftMerge(left, right, on, suffixes).value)
  {
    var kl := IndexOf(Names(left.columns), on);
    var kr := IndexOf(Names(right.columns), on);
    var rows := JoinRows(left.rows, kl, right.rows, kr, |right.columns|);
    JoinRowsSound(left.rows, kl, right.rows, kr, |right.columns|);
    JoinPreservesText(left, right, kl, kr, suffixes, rows);
  }

  /** Rows each produced from some left row, under the merged columns, keep
      the text requirement. */
  lemma JoinPreservesText(left: Table, right: Table, kl: nat, kr: nat, suffixes: (string, string), rows: seq<Row>)
    requires WellFormed(left) && WellFormed(right) && TextCellsOk(left) && TextCellsOk(right)
    requires kl < |left.columns| && kr < |right.columns|
    requires forall o :: o in rows ==>
      exists li :: 0 <= li < |left.rows| && Produces(left.rows[li], o, kl, right.rows, kr, |right.columns|)
    ensures TextCellsOk(Table(MergeColumns(left.columns, DropColumn(right.columns, kr), suffixes), rows))
  {
    var cols := MergeColumns(left.columns, DropColumn(right.columns, kr), suffixes);
    forall i, k | 0 <= i < |rows| && 0 <= k < |cols| && cols[k].kind == TextKind
      ensures At(rows[i], k) == Null || ShortString(At(rows[i], k))
    {
      MergedTextSource(left.columns, right.columns, kr, suffixes, k);
      assert rows[i] in rows;
      var li :| 0 <= li < |left.rows| && Produces(left.rows[li], rows[i], kl, right.rows, kr, |right.columns|);
      var rj := RowCellSource(left, right, kl, kr, li, rows[i], k);
      JoinedCellOk(left, right, kr, li, rj, rows[i], k);
    }
  }

  /** One cell of a joined row in a text column meets the text requirement,
      given where the cell comes from (`RowCellSource`). */
  lemma JoinedCellOk(left: Table, right: Table, kr: nat, li: nat, rj: nat, o: Row, k: nat)
    requires TextCellsOk(left) && TextCellsOk(right)
    requires kr < |right.columns| && li < |left.rows|
    requires k < |left.columns| + |right.columns| - 1
    requires k < |left.columns| ==> left.columns[k].kind == TextKind && At(o, k) == At(left.rows[li], k)
    requires k >= |left.columns| ==> right.columns[SourceColumn(k - |left.columns|, kr)].kind == TextKind
    requires k >= |left.columns| && At(o, k) != Null ==>
      rj < |right.rows| && At(o, k) == At(right.rows[rj], SourceColumn(k - |left.columns|, kr))
    ensures At(o, k) == Null || ShortString(At(o, k))
  {
    if k < |left.columns| {
      assert At(left.rows[li], k) == Null || ShortString(At(left.rows[li], k));
    } else if At(o, k) != Null {
      var c := SourceColumn(k - |left.columns|, kr);
      assert At(right.rows[rj], c) == Null || ShortString(At(right.rows[rj], c));
    }
  }

  /** Where one cell of a row produced from left row `li` comes from: the
      left row, or the cell of right row `rj` in the column it was copied
      from (or the padding). */
  lemma RowCellSource(left: Table, right: Table, kl: nat, kr: nat, li: nat, o: Row, k: nat) returns (rj: nat)
    requires WellFormed(right)
    requires kl < |left.columns| && kr < |right.columns| && li < |left.rows| && |left.rows[li]| == |left.columns|
    requires Produces(left.rows[li], o, kl, right.rows, kr, |right.columns|)
    requires k < |left.columns| + |right.columns| - 1
    ensures k < |left.columns| ==> At(o, k) == At(left.rows[li], k)
    ensures k >= |left.columns| && At(o, k) != Null ==>
      rj < |right.rows| && At(o, k) == At(right.rows[rj], SourceColumn(k - |left.columns|, kr))
  {
    rj := ProducedCell(left.rows[li], o, kl, right.rows, kr, |right.columns|, |left.columns|, k);
  }

  /** A text column of the merged table comes from a text column of the left
      table or, past the left columns, of the right table. */
  lemma MergedTextSource(left: seq<Column>, right: seq<Column>, kr: nat, suffixes: (string, string), k: nat)
    requires kr < |right| && k < |left| + |right| - 1
    requires MergeColumns(left, DropColumn(right, kr), suffixes)[k].kind == TextKind
    ensures k < |left| ==> left[k].kind == TextKind
    ensures k >= |left| ==> right[SourceColumn(k - |left|, kr)].kind == TextKind
  {
    if k < |left| {
      MergedLeftKind(left, DropColumn(right, kr), suffixes, k);
    } else {
      MergedKind(left, right, kr, suffixes, k);
    }
  }

  /** A merged column among the left columns has the left column's kind. */
  lemma MergedLeftKind(left: seq<Column>, rest: seq<Column>, suffixes: (string, string), k: nat)
    requires k < |left|
    ensures MergeColumns(left, rest, suffixes)[k].kind == left[k].kind
  {
  }

  /** A column of the merged table past the left columns has the kind of the
      right column it comes from. */
  lemma MergedKind(left: seq<Column>, right: seq<Column>, kr: nat, suffixes: (string, string), k: nat)
    requires kr < |right| && |left| <= k < |left| + |right| - 1
    ensures MergeColumns(left, DropColumn(right, kr), suffixes)[k].kind == right[SourceColumn(k - |left|, kr)].kind
  {
    var rest := DropColumn(right, kr);
    var j := k - |left|;
    assert rest[j] == right[SourceColumn(j, kr)];
    assert MergeColumns(left, rest, suffixes)[|left| + j].kind == rest[j].kind;
  }

  /** The date and timestamp parsers never produce a value over the cap (the
      formats they emit are 10 and 19 characters long). */
  ghost predicate ParsersBounded(c: Cleaners) {
    && (forall s :: c.parseDate(s).Some? ==> |c.parseDate(s).value| <= MaxLen)
    && (forall s :: c.parseTimestamp(s).Some? ==> |c.parseTimestamp(s).value| <= MaxLen)
  }

  predicate ShortText(v: Option<string>) {
    v.Some? ==> |v.value| <= MaxLen
  }

  lemma UsersTextOk(us: seq<User>)
    requires forall i :: 0 <= i < |us| ==>
      ShortText(us[i].joinDate) && |us[i].name| <= MaxLen && |us[i].email| <= MaxLen
    ensures TextCellsOk(UsersTable(us))
  {
    var t := UsersTable(us);
    forall i, k | 0 <= i < |t.rows| && 0 <= k < |t.columns| && t.columns[k].kind == TextKind
      ensures At(t.rows[i], k) == Null || ShortString(At(t.rows[i], k))
    {
      assert t.rows[i] == UserRow(us[i]);
      assert k == 1 || k == 2 || k == 3;
    }
  }

  lemma TransactionsTextOk(ts: seq<Transaction>)
    requires forall i :: 0 <= i < |ts| ==> ShortText(ts[i].timestamp) && |ts[i].transactionType| <= MaxLen
    ensures TextCellsOk(TransactionsTable(ts))
  {
    var t := TransactionsTable(ts);
    forall i, k | 0 <= i < |t.rows| && 0 <= k < |t.columns| && t.columns[k].kind == TextKind
      ensures At(t.rows[i], k) == Null || ShortString(At(t.rows[i], k))
    {
      assert t.rows[i] == TransactionRow(ts[i]);
      assert k == 2 || k == 4;
    }
  }

  lemma DeliveriesTextOk(ds: seq<Delivery>)
    requires forall i :: 0 <= i < |ds| ==>
      ShortText(ds[i].deliveryDate) && |ds[i].courier| <= MaxLen && |ds[i].deliveryStatus| <= MaxLen
    ensures TextCellsOk(DeliveriesTable(ds))
  {
    var t := DeliveriesTable(ds);
    forall i, k | 0 <= i < |t.rows| && 0 <= k < |t.columns| && t.columns[k].kind == TextKind
      ensures At(t.rows[i], k) == Null || ShortString(At(t.rows[i], k))
    {
      assert t.rows[i] == DeliveryRow(ds[i]);
      assert k == 2 || k == 3 || k == 4;
    }
  }

  /** The cleaned tables meet the text requirement once the parsers are bounded. */
  lemma CleanedTextOk(c: Cleaners, ru: seq<RawUser>, rt: seq<RawTransaction>, rd: seq<RawDelivery>)
    requires ParsersBounded(c)
    ensures var t := Cleaned(c, ru, rt, rd);
      TextCellsOk(t.0) && TextCellsOk(t.1) && TextCellsOk(t.2)
  {
    var us, ts, ds := TransformUsers(c, ru), TransformTransactions(c, rt), TransformDeliveries(c, rd);
    forall i | 0 <= i < |us| ensures ShortText(us[i].joinDate) {
      var idx := FirstIndices(ru, RawUserKey);
      assert us[i].joinDate == c.parseDate(AsText(ru[idx[i]].joinDate));
    }
    forall i | 0 <= i < |ts| ensures ShortText(ts[i].timestamp) {
      var idx := FirstIndices(rt, RawTransactionKey);
      assert ts[i].timestamp == c.parseTimestamp(AsText(rt[idx[i]].timestamp));
    }
    forall i | 0 <= i < |ds| ensures ShortText(ds[i].deliveryDate) {
      var idx := FirstIndices(rd, RawDeliveryKey);
      assert ds[i].deliveryDate == c.parseDate(AsText(rd[idx[i]].deliveryDate));
    }
    UsersTextOk(us);
    TransactionsTextOk(ts);
    DeliveriesTextOk(ds);
  }

  /** Why a run stops: `merge_data` raises, or `validate_data` raises on one of
      the two merged tables. */
  datatype PipelineError =
    | MergeFailed(merge: MergeError)
    | TransactionsInvalid(reason: ValidationError)
    | DeliveriesInvalid(reason: ValidationError)

  const TransactionKeyColumns: seq<string> := ["user_id", "transaction_id"]
  const DeliveryKeyColumns: seq<string> := ["user_id", "package_id"]

  /** Transform, merge and validate, in the order of the ETL run; the result
      is the pair of merged tables that would be saved. */
  function RunPipeline(c: Cleaners, ru: seq<RawUser>, rt: seq<RawTransaction>, rd: seq<RawDelivery>)
    : (r: Result<(Table, Table), PipelineError>)
    ensures var t := Cleaned(c, ru, rt, rd);
      var m := MergeData(t.0, t.1, t.2);
      && m.Success?
      && (r.Success? <==> TextCellsOk(m.value.0) && TextCellsOk(m.value.1))
      && (r.Success? ==> r.value == m.value)
      && (r.Failure? ==> (r.error.TransactionsInvalid? <==> !TextCellsOk(m.value.0)))
    ensures r.Success? ==>
      && KeysOk(r.value.0, TransactionKeyColumns) && TextCellsOk(r.value.0)
      && KeysOk(r.value.1, DeliveryKeyColumns) && TextCellsOk(r.value.1)
    ensures r.Failure? ==> !r.error.MergeFailed? && r.error.reason.BadTextField?
  {
    var t := Cleaned(c, ru, rt, rd);
    MergedKeysUnique(c, ru, rt, rd);
    var m := MergeData(t.0, t.1, t.2);
    match m
    case Failure(e) => Failure(MergeFailed(e))
    case Success(tables) => ValidateMerged(tables)
  }

  /** Validate both merged tables, transactions first, as the run does.
      With the key requirements already met, only a text problem can fail. */
  function ValidateMerged(tables: (Table, Table)): (r: Result<(Table, Table), PipelineError>)
    requires WellFormed(tables.0) && WellFormed(tables.1)
    requires KeysOk(tables.0, TransactionKeyColumns) && KeysOk(tables.1, DeliveryKeyColumns)
    ensures r.Success? <==> TextCellsOk(tables.0) && TextCellsOk(tables.1)
    ensures r.Success? ==> r.value == tables
    ensures r.Failure? ==> (r.error.TransactionsInvalid? <==> !TextCellsOk(tables.0))
    ensures r.Failure? ==> !r.error.MergeFailed? && r.error.reason.BadTextField?
  {
    match ValidateData(tables.0, TransactionKeyColumns)
    case Fail(e) => Failure(TransactionsInvalid(e))
    case Pass =>
      match ValidateData(tables.1, DeliveryKeyColumns)
      case Fail(e) => Failure(DeliveriesInvalid(e))
      case Pass => Success(tables)
  }

  /** With parsers that emit their fixed-width formats, every run passes
      validation: the cleaning rules establish everything `validate_data`
      checks. */
  lemma PipelinePasses(c: Cleaners, ru: seq<RawUser>, rt: seq<RawTransaction>, rd: seq<RawDelivery>)
    requires ParsersBounded(c)
    ensures RunPipeline(c, ru, rt, rd).Success?
  {
    var t := Cleaned(c, ru, rt, rd);
    MergedKeysUnique(c, ru, rt, rd);
    CleanedTextOk(c, ru, rt, rd);
    var m := MergeData(t.0, t.1, t.2).value;
    MergePreservesText(t.0, t.1, UserIdColumn, TransactionSuffixes);
    MergePreservesText(t.0, t.2, UserIdColumn, DeliverySuffixes);
    assert TextCellsOk(m.0) && TextCellsOk(m.1);
  }
}

=== FILE: tables.dfy ===
/** A pandas DataFrame reduced to what the merge and the validator look at:
    named columns with a declared kind, and rows of cells. */
module Tables {

  /** A cell: missing (None / NaN), a string, an integer or a float. */
  datatype Cell = Null | Str(s: string) | Int(i: int) | Dec(d: real)

  /** Whether a column holds text (pandas dtype `object`) or anything else. */
  datatype Kind = TextKind | OtherKind

  datatype Column = Column(name: string, kind: Kind)

  type Row = seq<Cell>

  datatype Table = Table(columns: seq<Column>, rows: seq<Row>)

  /** Every row has one cell per column. */
  predicate WellFormed(t: Table) {
    forall i :: 0 <= i < |t.rows| ==> |t.rows[i]| == |t.columns|
  }

  function Names(cols: seq<Column>): (r: seq<string>)
    ensures |r| == |cols|
    ensures forall i :: 0 <= i < |cols| ==> r[i] == cols[i].name
  {
    seq(|cols|, i requires 0 <= i < |cols| => cols[i].name)
  }

  /** How many times `x` occurs in `xs`. */
  function Count<T(==)>(xs: seq<T>, x: T): (n: nat)
    ensures n == multiset(xs)[x]
    ensures n > 0 <==> x in xs
  {
    if |xs| == 0 then 0
    else
      assert xs == [xs[0]] + xs[1..];
      (if xs[0] == x then 1 else 0) + Count(xs[1..], x)
  }

  /** The position of the first occurrence of `x` in `xs`. */
  function IndexOf<T(==)>(xs: seq<T>, x: T): (i: nat)
    requires x in xs
    ensures i < |xs| && xs[i] == x
    ensures forall j :: 0 <= j < i ==> xs[j] != x
  {
    if xs[0] == x then 0 else 1 + IndexOf(xs[1..], x)
  }

  /** The cell at position `i`, read as missing outside the row. */
  function At(row: Row, i: nat): Cell {
    if i < |row| then row[i] else Null
  }

  /** The cells of `row` at positions `cols`, in that order. */
  function Project(row: Row, cols: seq<nat>): (r: seq<Cell>)
    ensures |r| == |cols|
    ensures forall t :: 0 <= t < |cols| ==> r[t] == At(row, cols[t])
  {
    seq(|cols|, t requires 0 <= t < |cols| => At(row, cols[t]))
  }

  /** No two rows agree on all of the columns `cols`. */
  predicate UniqueOn(rows: seq<Row>, cols: seq<nat>) {
    forall i, j :: 0 <= i < j < |rows| ==> Project(rows[i], cols) != Project(rows[j], cols)
  }

  /** Two key-unique tables with no key in common concatenate to a key-unique table. */
  lemma UniqueOnConcat(a: seq<Row>, b: seq<Row>, cols: seq<nat>)
    requires UniqueOn(a, cols) && UniqueOn(b, cols)
    requires forall x, y :: x in a && y in b ==> Project(x, cols) != Project(y, cols)
    ensures UniqueOn(a + b, cols)
  {
    var s := a + b;
    forall i, j | 0 <= i < j < |s| ensures Project(s[i], cols) != Project(s[j], cols) {
      if j < |a| {
        assert s[i] == a[i] && s[j] == a[j];
      } else if i >= |a| {
        assert s[i] == b[i - |a|] && s[j] == b[j - |a|];
      } else {
        assert s[i] in a && s[j] in b;
      }
    }
  }
}

=== FILE: text.dfy ===
/** String cleaning used by the transforms: Python's `str()` of a cell,
    `str.slice(0, 256)`, `str.strip()` and `str.upper()`. */
module Text {
  import opened Wrappers

  /** The hard cap on text fields, both when cleaning and when validating. */
  const MaxLen: nat := 256

  /** `astype(str)` on a cell: a missing value (NaN) is rendered as "nan". */
  function AsText(v: Option<string>): (r: string)
    ensures v.Some? ==> r == v.value
    ensures v.None? ==> r == "nan"
  {
    match v
    case None => "nan"
    case Some(s) => s
  }

  /** The rendering is lossy only at the literal text "nan": a missing value
      and the string "nan" look the same afterwards, and every other present
      string stays distinguishable from a missing value. So a missing cell
      reaches the text check as the three characters "nan". */
  lemma AsTextNan(v: Option<string>)
    ensures AsText(v) == "nan" <==> v == None || v == Some("nan")
    ensures v.Some? && v.value != "nan" ==> AsText(v) != AsText(None)
    ensures |AsText(None)| <= MaxLen
  {
  }

  /** `s[0:256]`: the longest prefix of `s` that fits the cap. */
  function Truncate(s: string): (r: string)
    ensures |r| <= MaxLen
    ensures r <= s
    ensures |r| == if |s| <= MaxLen then |s| else MaxLen
    ensures |s| <= MaxLen ==> r == s
  {
    if |s| <= MaxLen then s else s[..MaxLen]
  }

  /** Truncating twice is the same as truncating once. */
  lemma TruncateIdempotent(s: string)
    ensures Truncate(Truncate(s)) == Truncate(s)
  {
  }

  /** The characters Python's `str.isspace` accepts, which `str.strip()` removes. */
  predicate IsSpace(ch: char) {
    var c := ch as int;
    (9 <= c <= 13) || (28 <= c <= 32) || c == 0x85 || c == 0xA0 || c == 0x1680
    || (0x2000 <= c <= 0x200A) || c == 0x2028 || c == 0x2029 || c == 0x202F
    || c == 0x205F || c == 0x3000
  }

  predicate AllSpace(s: string) {
    forall i :: 0 <= i < |s| ==> IsSpace(s[i])
  }

  /** Number of leading whitespace characters of `s`. */
  function Lead(s: string): (n: nat)
    ensures n <= |s|
    ensures forall i :: 0 <= i < n ==> IsSpace(s[i])
    ensures n < |s| ==> !IsSpace(s[n])
  {
    if |s| > 0 && IsSpace(s[0]) then 1 + Lead(s[1..]) else 0
  }

  /** Length of `s` once its trailing whitespace is removed. */
  function Trail(s: string): (n: nat)
    ensures n <= |s|
    ensures forall i :: n <= i < |s| ==> IsSpace(s[i])
    ensures n > 0 ==> !IsSpace(s[n - 1])
  {
    if |s| > 0 && IsSpace(s[|s| - 1]) then Trail(s[..|s| - 1]) else |s|
  }

  /** `str.strip()`: remove leading and trailing whitespace. */
  function Strip(s: string): (r: string)
    ensures |r| <= |s|
    ensures Lead(s) + |r| <= |s| && r == s[Lead(s)..Lead(s) + |r|]
    ensures AllSpace(s[..Lead(s)]) && AllSpace(s[Lead(s) + |r|..])
    ensures |r| > 0 ==> !IsSpace(r[0]) && !IsSpace(r[|r| - 1])
  {
    var t := s[Lead(s)..];
    t[..Trail(t)]
  }

  /** A string without boundary whitespace is left alone by `Strip`. */
  lemma {:induction false} StripKeepsTrimmed(s: string)
    requires |s| > 0 ==> !IsSpace(s[0]) && !IsSpace(s[|s| - 1])
    ensures Strip(s) == s
  {
    assert Lead(s) == 0;
    assert s[0..] == s;
    if |s| > 0 {
      assert Trail(s) == |s|;
    }
  }

  lemma StripIdempotent(s: string)
    ensures Strip(Strip(s)) == Strip(s)
  {
    StripKeepsTrimmed(Strip(s));
  }

  predicate IsLowerAscii(ch: char) { 'a' <= ch <= 'z' }

  predicate NoLowerAscii(s: string) {
    forall i :: 0 <= i < |s| ==> !IsLowerAscii(s[i])
  }

  function UpperChar(ch: char): char {
    if IsLowerAscii(ch) then (ch as int - 32) as char else ch
  }

  /** `str.upper()` restricted to ASCII: each lower-case letter becomes its capital. */
  function Upper(s: string): (r: string)
    ensures |r| == |s|
    ensures NoLowerAscii(r)
    ensures forall i :: 0 <= i < |s| && !IsLowerAscii(s[i]) ==> r[i] == s[i]
    ensures forall i :: 0 <= i < |s| && IsLowerAscii(s[i]) ==> r[i] as int == s[i] as int - 32
    ensures forall i :: 0 <= i < |s| ==> (IsSpace(r[i]) <==> IsSpace(s[i]))
  {
    seq(|s|, i requires 0 <= i < |s| => UpperChar(s[i]))
  }

  /** The courier rule: `astype(str).str.strip().str.upper().str.slice(0, 256)`. */
  function NormalizeCourier(v: Option<string>): (r: string)
    ensures |r| <= MaxLen
    ensures |r| == if |Strip(AsText(v))| <= MaxLen then |Strip(AsText(v))| else MaxLen
    ensures NoLowerAscii(r)
    ensures r == Upper(Strip(AsText(v)))[..|r|]
    ensures |r| > 0 ==> !IsSpace(r[0])
    ensures |Strip(AsText(v))| <= MaxLen ==> r == Upper(Strip(AsText(v)))
    ensures |Strip(AsText(v))| <= MaxLen && |r| > 0 ==> !IsSpace(r[|r| - 1])
  {
    CappedUpper(Strip(AsText(v)))
  }

  /** Upper-case a stripped string, then cap it: the result is free of
      lower-case ASCII letters and of leading whitespace, and is the whole
      upper-cased string when it fits. */
  function CappedUpper(s: string): (r: string)
    requires |s| > 0 ==> !IsSpace(s[0]) && !IsSpace(s[|s| - 1])
    ensures |r| <= MaxLen
    ensures |r| == if |s| <= MaxLen then |s| else MaxLen
    ensures NoLowerAscii(r)
    ensures r == Upper(s)[..|r|]
    ensures |r| > 0 ==> !IsSpace(r[0])
    ensures |s| <= MaxLen ==> r == Upper(s)
    ensures |s| <= MaxLen && |r| > 0 ==> !IsSpace(r[|r| - 1])
  {
    var u := Upper(s);
    var r := Truncate(u);
    assert forall i :: 0 <= i < |r| ==> r[i] == u[i];
    r
  }

  /** The worked example: "  fedEx " becomes "FEDEX". */
  lemma CourierExample()
    ensures NormalizeCourier(Some("  fedEx ")) == "FEDEX"
  {
    StripExample();
    UpperExample();
  }

  lemma StripExample()
    ensures Strip("  fedEx ") == "fedEx"
  {
    var s := "  fedEx ";
    assert s[1..] == " fedEx ";
    assert s[1..][1..] == "fedEx ";
    assert Lead(s) == 2;
    var t := s[2..];
    assert t == "fedEx ";
    assert t[..|t| - 1] == "fedEx";
    assert Trail(t) == 5;
  }

  lemma UpperExample()
    ensures Upper("fedEx") == "FEDEX"
  {
    var u := Upper("fedEx");
    assert u[0] == 'F' && u[1] == 'E' && u[2] == 'D' && u[3] == 'E' && u[4] == 'X';
  }

  /** A missing courier is rendered "nan" and then upper-cased. */
  lemma MissingCourier()
    ensures NormalizeCourier(None) == "NAN"
  {
    assert Strip("nan") == "nan" by { StripKeepsTrimmed("nan"); }
  }
}

=== FILE: transform.dfy ===
/** Per-entity cleaning of the three raw tables (users, transactions,
    deliveries). Each transform first drops rows whose key was already seen,
    keeping the first, and only then cleans the surviving rows' fields. */
module Transform {
  import opened Wrappers
  import opened Text
  import opened Dedup

  /** An identifier cell: an integer, or None for a missing (NaN) value. */
  type Id = Option<int>

  /** The cleaning steps that rest on foreign code: dateutil parsing of a
      date, of a timestamp localised to America/Mexico_City, and pandas'
      round-to-two-decimals of a float. A parser returns None on failure. */
  datatype Cleaners = Cleaners(
    parseDate: string -> Option<string>,
    parseTimestamp: string -> Option<string>,
    round2: real -> real)

  datatype RawUser = RawUser(userId: Id, joinDate: Option<string>, name: Option<string>, email: Option<string>)
  datatype User = User(userId: Id, joinDate: Option<string>, name: string, email: string)

  datatype RawTransaction = RawTransaction(
    transactionId: Id, userId: Id, timestamp: Option<string>, amount: Option<real>, transactionType: Option<string>)
  datatype Transaction = Transaction(
    transactionId: Id, userId: Id, timestamp: Option<string>, amount: Option<real>, transactionType: string)

  datatype RawDelivery = RawDelivery(
    packageId: Id, userId: Id, deliveryDate: Option<string>, courier: Option<string>, deliveryStatus: Option<string>)
  datatype Delivery = Delivery(
    packageId: Id, userId: Id, deliveryDate: Option<string>, courier: string, deliveryStatus: string)

  // Key selectors, named so that every contract refers to the same function value.
  function RawUserKey(u: RawUser): Id { u.userId }
  function UserKey(u: User): Id { u.userId }
  function RawTransactionKey(t: RawTransaction): Id { t.transactionId }
  function TransactionKey(t: Transaction): Id { t.transactionId }
  function RawDeliveryKey(d: RawDelivery): Id { d.packageId }
  function DeliveryKey(d: Delivery): Id { d.packageId }

  /** `round(2)` on a float column: a missing amount stays missing. */
  function RoundAmount(c: Cleaners, a: Option<real>): Option<real> {
    match a
    case None => None
    case Some(x) => Some(c.round2(x))
  }

  /** The field cleaning of one surviving user row. */
  function CleanUser(c: Cleaners, u: RawUser): User {
    User(u.userId, c.parseDate(AsText(u.joinDate)), Truncate(AsText(u.name)), Truncate(AsText(u.email)))
  }

  function CleanTransaction(c: Cleaners, t: RawTransaction): Transaction {
    Transaction(t.transactionId, t.userId, c.parseTimestamp(AsText(t.timestamp)),
                RoundAmount(c, t.amount), Truncate(AsText(t.transactionType)))
  }

  function CleanDelivery(c: Cleaners, d: RawDelivery): Delivery {
    Delivery(d.packageId, d.userId, c.parseDate(AsText(d.deliveryDate)),
             NormalizeCourier(d.courier), Truncate(AsText(d.deliveryStatus)))
  }

  /** `transform_users`: keep the first row per `user_id`, then parse
      `join_date` and cap `name` and `email`. */
  function TransformUsers(c: Cleaners, raw: seq<RawUser>): (r: seq<User>)
    ensures |r| == |KeysOf(raw, RawUserKey)|
    ensures UniqueBy(r, UserKey)
    ensures KeysOf(r, UserKey) == KeysOf(raw, RawUserKey)
    ensures var idx := FirstIndices(raw, RawUserKey);
      |idx| == |r| &&
      forall t :: 0 <= t < |r| ==>
        idx[t] < |raw| && IsFirst(raw, RawUserKey, idx[t]) && r[t] == CleanUser(c, raw[idx[t]])
        && r[t].userId == raw[idx[t]].userId
    ensures forall t :: 0 <= t < |r| ==> |r[t].name| <= MaxLen && |r[t].email| <= MaxLen
  {
    var kept := KeepFirst(raw, RawUserKey);
    var r := seq(|kept|, t requires 0 <= t < |kept| => CleanUser(c, kept[t]));
    KeptAndMapped(raw, RawUserKey, r, UserKey);
    r
  }

  /** `transform_transactions`: keep the first row per `transaction_id`, then
      parse `timestamp`, round `amount` and cap `transaction_type`. */
  function TransformTransactions(c: Cleaners, raw: seq<RawTransaction>): (r: seq<Transaction>)
    ensures |r| == |KeysOf(raw, RawTransactionKey)|
    ensures UniqueBy(r, TransactionKey)
    ensures KeysOf(r, TransactionKey) == KeysOf(raw, RawTransactionKey)
    ensures var idx := FirstIndices(raw, RawTransactionKey);
      |idx| == |r| &&
      forall t :: 0 <= t < |r| ==>
        idx[t] < |raw| && IsFirst(raw, RawTransactionKey, idx[t]) && r[t] == CleanTransaction(c, raw[idx[t]])
        && r[t].transactionId == raw[idx[t]].transactionId && r[t].userId == raw[idx[t]].userId
    ensures forall t :: 0 <= t < |r| ==> |r[t].transactionType| <= MaxLen
  {
    var kept := KeepFirst(raw, RawTransactionKey);
    var r := seq(|kept|, t requires 0 <= t < |kept| => CleanTransaction(c, kept[t]));
    KeptAndMapped(raw, RawTransactionKey, r, TransactionKey);
    r
  }

  /** `transform_deliveries`: keep the first row per `package_id`, then parse
      `delivery_date`, normalise `courier` and cap `delivery_status`. */
  function TransformDeliveries(c: Cleaners, raw: seq<RawDelivery>): (r: seq<Delivery>)
    ensures |r| == |KeysOf(raw, RawDeliveryKey)|
    ensures UniqueBy(r, DeliveryKey)
    ensures KeysOf(r, DeliveryKey) == KeysOf(raw, RawDeliveryKey)
    ensures var idx := FirstIndices(raw, RawDeliveryKey);
      |idx| == |r| &&
      forall t :: 0 <= t < |r| ==>
        idx[t] < |raw| && IsFirst(raw, RawDeliveryKey, idx[t]) && r[t] == CleanDelivery(c, raw[idx[t]])
        && r[t].packageId == raw[idx[t]].packageId && r[t].userId == raw[idx[t]].userId
    ensures forall t :: 0 <= t < |r| ==>
      |r[t].courier| <= MaxLen && NoLowerAscii(r[t].courier) && |r[t].deliveryStatus| <= MaxLen
  {
    var kept := KeepFirst(raw, RawDeliveryKey);
    var r := seq(|kept|, t requires 0 <= t < |kept| => CleanDelivery(c, kept[t]));
    KeptAndMapped(raw, RawDeliveryKey, r, DeliveryKey);
    r
  }

  /** The first raw row's fields win: two users sharing `user_id` 1 leave
      only the first one, with its name "Ann". */
  lemma DedupBeforeCleanExample(c: Cleaners)
    ensures var r := TransformUsers(c, [RawUser(Some(1), None, Some("Ann"), None),
                                        RawUser(Some(1), None, Some("ann-dup"), None)]);
      |r| == 1 && r[0].userId == Some(1) && r[0].name == "Ann"
  {
    var raw := [RawUser(Some(1), None, Some("Ann"), None), RawUser(Some(1), None, Some("ann-dup"), None)];
    assert KeysOf(raw, RawUserKey) == {Some(1)} by {
      assert RawUserKey(raw[0]) == Some(1) && RawUserKey(raw[1]) == Some(1);
    }
    var r := TransformUsers(c, raw);
    var idx := FirstIndices(raw, RawUserKey);
    assert IsFirst(raw, RawUserKey, idx[0]);
    assert idx[0] == 0;
  }
}

=== FILE: wrappers.dfy ===
/** Failure-carrying datatypes shared by the pipeline model.
    - Option<T>: a value that may be missing (a null / NaN cell, a failed parse)
    - Result<T, E>: a value or the error a pandas call would raise
    - Outcome<E>: success without a value, or the error an assertion would raise
 */
module Wrappers {

  datatype Option<+T> = None | Some(value: T)

  datatype Result<+T, +E> = Success(value: T) | Failure(error: E)

  datatype Outcome<+E> = Pass | Fail(error: E)
}
